=== FILE: README.md ===
# Horary aspect timing and perfection, in Dafny

This project models the aspect-timing core of a horary astrology backend. It covers:

- the aspects between chart bodies;
- when each aspect perfects under linear motion;
- whether it perfects before either body changes sign;
- the Moon's last and next aspects, which drive the void-of-course test;
- the resolver that decides how the main perfection of two significators is affected by a third classical body: prohibited, or completed by translation or collection of light.

It follows `backend/horary_engine/aspects.py` and `backend/horary_engine/perfection.py`.

Layout, one module per concept:

| file | module | models |
|---|---|---|
| `wrappers.dfy` | `Wrappers` | `Option` |
| `angles.dfy` | `Angles` | Python's floored `% 360`, the signed longitude delta, the separation |
| `charts.dfy` | `Charts` | bodies, aspect kinds, positions, the chart (an ordered sequence of placements: a Python dict keeps insertion order), `Time` (a finite number of days or `inf`) |
| `kinematics.dfy` | `Kinematics` | `time_to_perfection` and the applying/separating tests |
| `signs.dfy` | `Signs` | the "perfects before sign exit" gate |
| `orbs.dfy` | `Orbs` | orb differences, moiety orbs, the tolerance, degrees-to-exact |
| `pairscan.dfy`, `scanner.dfy` | `PairScan`, `Scanner` | `calculate_enhanced_aspects` (`PairScan` is the generic i < j enumeration) |
| `selection.dfy`, `moon.dfy` | `Selection`, `Moon` | the Moon's last and next aspect and the timing buckets (`Selection` is the generic candidate grid and `min(..., key=...)`) |
| `perfection.dfy` | `Perfection`, `PerfectionScan`, `Prohibitions` | `check_future_prohibitions` |

Real numbers are exact. `inf` is the `Inf` constructor of `Time`. As in Python, `inf > 0` holds (`Time.Positive`), so only the explicit finiteness tests reject it.

The program calls collaborators whose code is outside this model. They become parameters:

- `days_to_sign_exit` is a `SignExit`.
- the ephemeris conversion of a Julian day to a calendar moment is a `CalendarFn`.
- `calc_future_aspect_time` is an `AspectTimeFn`.
- the reception test is a `(Body, Body) -> bool`.
- the Moon's speed `get_moon_speed(jd_ut)` is a real.
- the iteration order and nominal orbs of the `Aspect` enumeration are a sequence and an `AspectKind -> real` function.
- configuration values (`OrbConfig`, `max_future_days`, `PerfectionConfig`) are plain values.

Three behaviours of the code are worth knowing. The proofs make them explicit.

- The resolver returns at the first (planet, aspect) iteration that qualifies, in the order of the constant lists at `perfection.py:13-29`. It does not pick the globally earliest event. `Prohibitions.FirstPairNotEarliest` shows a chart where a later-listed body's prohibition at day 3 loses to an earlier-listed body's at day 5.
- The sign of `time_to_perfection` depends only on the relative speed (`Kinematics.ApplyingIffFaster`, `Kinematics.SeparatingIffSlower`). It does not depend on whether the orb is closing. So the Moon's "last separating aspect" can only be to a body that is currently faster than the Moon (`Moon.LastAspectNeedsFasterBody`). The docstring of `is_applying_enhanced` calls a pair applying "if the orb is shrinking". What the code computes is that the first body is faster and does not stand the aspect's angle ahead of the second now (`Scanner.ApplyingEnhanced`). The model keeps the code's behaviour.
- `time_to_perfection` times only the configuration with the first body ahead of the second by the aspect's angle (`aspects.py:39`). For sextile, square and trine it never times the mirror configuration, with the second body ahead. `Kinematics.MirrorSideNotTimed` shows a Moon 5 degrees from a sextile with Mars. The sextile becomes exact with Mars ahead after 0.4 days, but the time reported is 10 days, for the sextile with the Moon ahead. Since the next-aspect search drops a candidate whose time exceeds the Moon's sign exit (`aspects.py:161-164`), such a nearby aspect can be missed, which feeds the void-of-course test. The model keeps the code's behaviour.

## Model

| member | source | states |
|---|---|---|
| Angles.Mod360 | backend/horary_engine/aspects.py:22 | Python's `x % 360` lands in [0, 360) and differs from `x` by whole turns |
| Angles.Mod360Unique | backend/horary_engine/aspects.py:39 | the normalised angle is the only value in [0, 360) that names the same point of the circle |
| Angles.SignedDelta | backend/horary_engine/aspects.py:19-22 | the signed delta lies in [-180, 180) and names the same point as lon1 - lon2 |
| Angles.Separation | backend/horary_engine/aspects.py:68 | the separation of two longitudes lies in [0, 180] |
| Angles.SeparationIsShorterArc | backend/horary_engine/aspects.py:68 | the separation is the shorter of the two arcs between the longitudes |
| Angles.SeparationSymmetric | backend/horary_engine/aspects.py:238 | the separation does not depend on which body comes first |
| Charts.Lookup | backend/horary_engine/perfection.py:75 | `planets.get(body)` finds an entry exactly when some placement has that body, and returns that placement's position |
| Kinematics.RelativeSpeed | backend/horary_engine/aspects.py:41-43 | direction times magnitude, subtracted, is the plain difference of the signed speeds |
| Kinematics.TimeToPerfection | backend/horary_engine/aspects.py:25-48 | `inf` exactly when the speeds are equal; otherwise the aspect is exact at `t` with the first body `Degrees(k)` ahead of the second, and `t` lies on the side of zero the relative speed points to, within one relative turn |
| Kinematics.FirstCrossing | backend/horary_engine/aspects.py:25-48 | the finite time is the first moment, in the direction of relative motion, at which the first body stands `Degrees(k)` ahead of the second: no such moment lies strictly between now and it |
| Kinematics.ExactNowIffNoOffset | backend/horary_engine/aspects.py:39 | `theta0` is zero exactly when the first body stands `Degrees(k)` ahead of the second now |
| Kinematics.IsApplying | backend/horary_engine/aspects.py:197-206 | bodies with equal speeds are never applying |
| Kinematics.IsSeparating | backend/horary_engine/aspects.py:185-194 | bodies with equal speeds are never separating; separating excludes applying |
| Kinematics.ApplyingIffFaster | backend/horary_engine/aspects.py:197-206 | applying holds exactly when the first body is faster and does not stand `Degrees(k)` ahead of the second now |
| Kinematics.SeparatingIffSlower | backend/horary_engine/aspects.py:185-194 | separating holds exactly when the first body is slower and does not stand `Degrees(k)` ahead of the second now |
| Kinematics.MirrorSideNotTimed | backend/horary_engine/aspects.py:39-47 | a sextile exact with the second body ahead after 0.4 days is not the time reported: the reported time, 10 days, is when the first body is ahead |
| Kinematics.TenDaysToConjunction | backend/horary_engine/aspects.py:25-48 | a body at 0 degrees moving 1 degree a day conjoins a fixed body at 10 degrees in 10 days |
| Signs.SignOf | backend/horary_engine/aspects.py:401-404 | `int(lon // 30)` is the band k with 30k <= lon < 30k + 30 |
| Signs.SignBand | backend/horary_engine/aspects.py:401-404 | `int(lon // 30)` is k exactly when lon lies in [30k, 30k + 30) |
| Signs.WillPerfectBeforeSignExit | backend/horary_engine/aspects.py:382-406 | true only for a finite positive time that both exit horizons allow, with both bodies back in their starting signs |
| Signs.GeometricExit | backend/horary_engine/aspects.py:390-391 | the reference horizon is undefined exactly for a stationary body |
| Signs.BodyGateIffStays | backend/horary_engine/aspects.py:390-404 | with geometric horizons, one body's horizon check and sign check together hold exactly when it stays in its sign throughout [0, t] |
| Signs.GateIffBothStay | backend/horary_engine/aspects.py:382-406 | with geometric horizons, the gate holds exactly when t is finite and positive and neither body changes sign before t |
| Signs.BeforeExitStays | backend/horary_engine/aspects.py:390-391 | a moving body stays in its sign for any time short of its geometric horizon |
| Orbs.OrbDiff | backend/horary_engine/aspects.py:72 | the orb difference lies in [0, 180] |
| Orbs.OrbToAspect | backend/horary_engine/aspects.py:345-358 | equals the plain orb difference; the wrap-around branch never changes it |
| Orbs.OrbDiffSymmetric | backend/horary_engine/aspects.py:238-242 | the orb difference does not depend on which body comes first |
| Orbs.ZeroOrbIffExactEitherWay | backend/horary_engine/aspects.py:242 | a zero orb difference means the aspect is exact now, with either body leading |
| Orbs.OrbAtTime | backend/horary_engine/aspects.py:361-379 | the future orb lies in [0, 180] |
| Orbs.OrbClosesAtPerfection | backend/horary_engine/aspects.py:361-379 | at the time `time_to_perfection` reports, the future orb is zero |
| Orbs.MoietyOrb | backend/horary_engine/aspects.py:290-300 | the orb is 0, the legacy fallback, without a moiety table and also for a table that lists neither planet |
| Orbs.MoietyOrbSymmetric | backend/horary_engine/aspects.py:299-306 | the moiety orb does not depend on which planet comes first |
| Orbs.MoietyOrbBounds | backend/horary_engine/aspects.py:302-317 | with non-negative full orbs, the orb lies between 0 and the combined moieties, and equals them for conjunction and opposition |
| Orbs.MoietyTrineExample | backend/horary_engine/aspects.py:309-314 | full orbs 8 and 6 allow a trine 5.95 degrees |
| Orbs.Tolerance | backend/horary_engine/aspects.py:245-256 | a nonzero moiety orb is the tolerance |
| Orbs.LegacyTolerance | backend/horary_engine/aspects.py:249-256 | whenever the moiety orb is 0, the tolerance is the nominal orb, plus the Sun's bonus when the Sun is in the pair and the Moon's bonus when the Moon is, in either order |
| Orbs.AbsentFromTableFallsBack | backend/horary_engine/aspects.py:299-300 | a moiety table that lists neither planet gives the same tolerance as no table |
| Orbs.EnhancedDegreesToExact | backend/horary_engine/aspects.py:409-445 | degrees are the orb difference, or exactly 0.1 when that is below 0.1; a timestamp only for a finite time in (0, max_future_days), and then the converted Julian day |
| Orbs.DegreesToExactMeaning | backend/horary_engine/aspects.py:418-445 | the degrees shown do not depend on the body order, and an aspect exact now, either way round, shows 0.1 |
| Scanner.FirstMatch | backend/horary_engine/aspects.py:241-258 | the first kind, in enumeration order, whose orb is within tolerance; none when no kind is |
| Scanner.Record | backend/horary_engine/aspects.py:259-284 | the record carries the pair, kind, orb and time; applying iff the time is finite and positive; within-sign iff the gate holds, which requires applying; degrees equal to the orb, or 0.1 for an orb below 0.1; a timestamp only when applying within the horizon |
| Scanner.ApplyingEnhanced | backend/horary_engine/aspects.py:321-342 | applying exactly when the first body is faster and does not stand `Degrees(k)` ahead of the second now; within-sign implies applying; the third value is the time to perfection |
| Scanner.WithinSignMeansBothStay | backend/horary_engine/aspects.py:333-342 | with geometric horizons, the within-sign flag holds exactly when the pair applies and neither body changes sign before perfection |
| Scanner.RecordAgreesWithStatus | backend/horary_engine/aspects.py:259-266 | the scan's applying and within-sign fields agree with `is_applying_enhanced` |
| Scanner.PairAspect | backend/horary_engine/aspects.py:240-285 | a pair gets a record exactly when some kind is within tolerance; the record is for the first such kind, and its orb is within that kind's tolerance |
| Scanner.ScanSound | backend/horary_engine/aspects.py:232-287 | every scanned record is some pair's record, for chart positions p < q |
| Scanner.ScanComplete | backend/horary_engine/aspects.py:232-287 | every pair p < q with a match has its record in the result |
| Scanner.ScanNoDuplicates | backend/horary_engine/aspects.py:232-233 | with distinct chart bodies, no ordered pair of bodies is recorded twice |
| Scanner.EnhancedAspects | backend/horary_engine/aspects.py:224-287 | sound, complete and duplicate-free with respect to the per-pair search |
| Selection.MinBy | backend/horary_engine/aspects.py:94-96 | Python's `min(..., key=...)`: none exactly for an empty list; otherwise an element whose key no other undercuts, and the first such |
| Moon.FormatTiming | backend/horary_engine/aspects.py:209-221 | each bucket holds exactly the durations in its range (under 0.5, [0.5, 1), [1, 7), [7, 30), [30, 365), from 365), with the count of days, weeks or months it names |
| Moon.FormatTimingMonotone | backend/horary_engine/aspects.py:209-221 | a later perfection never gets a finer bucket |
| Moon.LastCandidate | backend/horary_engine/aspects.py:63-92 | a candidate exists exactly for a non-Moon body within 1.5 nominal orbs whose time is finite and negative; it records the positive time since exact, the orb as its degrees difference, and the `DaysAgo` label of that time |
| Moon.LastSelection | backend/horary_engine/aspects.py:94-98 | the selection is none exactly when there are no candidates, and otherwise the candidate perfected most recently |
| Moon.MoonLastAspect | backend/horary_engine/aspects.py:51-98 | none exactly when there is no candidate; otherwise a separating candidate, not the Moon, with the smallest time since exact, and the first appended on a tie |
| Moon.LastAspectNeedsFasterBody | backend/horary_engine/aspects.py:77-78 | the reported body is faster than the Moon |
| Moon.NextCandidate | backend/horary_engine/aspects.py:138-176 | a candidate exists exactly for a classical target applying at a finite positive time, within the nominal orb unless the gate is off, no later than the Moon's exit, and passing the sign gate; it records the time, the orb as its degrees difference, and `format_timing_description` of the time |
| Moon.NextSelection | backend/horary_engine/aspects.py:178-182 | the selection is none exactly when there are no candidates, and otherwise the soonest |
| Moon.MoonNextAspect | backend/horary_engine/aspects.py:101-182 | none exactly when there is no candidate; otherwise an applying candidate, perfecting no later than the Moon's exit (`days_to_sign_exit` of the Moon's longitude and injected speed), with the smallest time, and the first appended on a tie |
| Moon.UngatedFindsNoLater | backend/horary_engine/aspects.py:150-153 | switching the orb gate off never loses the next aspect or makes it later |
| Moon.VoidOfCourse | backend/horary_engine/aspects.py:114-118 | void of course exactly when no classical target in the chart has an aspect kind whose time to perfection is finite and positive, no later than the Moon's exit, and passes the sign gate; the current orb plays no part |
| Moon.VoidMeansNoGatedAspect | backend/horary_engine/aspects.py:114-118 | a void-of-course Moon has no next aspect within display orbs |
| Perfection.QualityOf | backend/horary_engine/perfection.py:87-91 | easier exactly for conjunction, trine and sextile |
| Perfection.ValidLeg | backend/horary_engine/perfection.py:61-70 | a valid leg lies strictly inside (0, days_ahead); without in-sign checking that is all it needs, and with it the leg must also end strictly before both bodies' sign-exit horizons |
| Perfection.ValidLegStaysInSign | backend/horary_engine/perfection.py:61-70 | with geometric horizons, a valid leg under in-sign checking keeps both bodies in their signs |
| Perfection.Classify | backend/horary_engine/perfection.py:80-173 | none exactly when neither leg is valid. Translation (faster than both) and collection (slower than both) need both legs and happen at the later one. A prohibition hits the significator whose valid leg comes first, sig1 on ties. The outcome is a prohibition exactly when not both legs are valid or the third body's speed lies between the significators'. The outcome names the aspect of the iteration. Quality, reception and softening follow the kind and the reception test |
| PerfectionScan.PairOutcome | backend/horary_engine/perfection.py:72-83 | an iteration returns exactly when its body is examined (not a significator, present in the chart) and one of its two legs is valid; the outcome names that body and aspect, at a time inside (0, days_ahead) |
| PerfectionScan.ScanAspects | backend/horary_engine/perfection.py:79-173 | the inner loop returns the outcome of its first returning aspect, and returns none exactly when no aspect does |
| PerfectionScan.ScanPlanets | backend/horary_engine/perfection.py:72-175 | the outer loop returns the outcome of the first returning (planet, aspect) iteration, and returns the none outcome exactly when no iteration does |
| Prohibitions.CheckFutureProhibitions | backend/horary_engine/perfection.py:32-175 | none found exactly when no iteration returns; otherwise the outcome of the first returning iteration, at a time inside (0, days_ahead), naming an examined classical body |
| Prohibitions.ReceptionOnlyAnnotates | backend/horary_engine/perfection.py:92-100 | changing the reception test changes neither whether, when, by whom nor in which aspect the outcome happens |
| Prohibitions.CollectionAtLaterLeg | backend/horary_engine/perfection.py:111-136 | Saturn, slower than both significators and met at days 3 and 7, collects their light at day 7 |
| Prohibitions.FirstPairNotEarliest | backend/horary_engine/perfection.py:72-83 | the first body in list order wins: a prohibition at day 5 is returned although a later-listed body prohibits at day 3 |

## Left out

- Floating point: longitudes, speeds and times are exact reals, so there is no rounding and no NaN. `math.isfinite` is modelled only for `inf`, through `Time`.
- The `Aspect` enumeration (its member order, `degrees` and nominal `orb`) is defined outside this model. The order and the orbs are parameters. The exact angles are taken as 0, 60, 90, 120 and 180 degrees.
- `days_to_sign_exit`, the reception calculator, `calc_future_aspect_time`, `get_moon_speed` and the ephemeris's `jdut1_to_utc` are outside this model and appear only as parameters. The ephemeris conversion and its `except` path are one `CalendarFn` that returns None on failure. The `datetime` construction (minutes from the fractional hour) is part of that function.
- Configuration loading (`cfg()`): its values are passed in. A missing `perfection` section is `DefaultConfig` (true, false).
- The 0.8 multiplier for "other aspects" in `calculate_moiety_based_orb`: the five aspect kinds already take the other branches, so it cannot be reached.
- Reason strings: only the " (softened by reception)" suffix is modelled, as `softened`. The `"N days ago"` text of a separating aspect is the `DaysAgo` bucket, without its one-decimal rounding. `format_timing_description` returns a `Timing` bucket instead of text.
- Prohibitions.CheckFutureProhibitions: under in-sign checking it requires a defined sign-exit horizon for both significators and every classical planet in the chart. The source fails with a comparison error only when a leg that reaches that comparison has an undefined horizon. `Perfection.ValidLeg` itself asks for the horizons only of a leg inside (0, days_ahead), the only legs that reach the comparison.
- `MoonLastAspect` and `MoonNextAspect` ignore `jd_ut`, as the source does except for `get_moon_speed`. The speed is passed as `moonSpeed`.
- A missing key raises `KeyError` in the source (`planets[Planet.MOON]` at `aspects.py:58` and `aspects.py:121`, `chart.planets[sig]` at `perfection.py:57-58`). The model has no exception path: the Moon and both significators must be present (`Lookup(...).Some?`, `WellFormed`).
- `evaluate_chart.py`, `category_rules.py` and the frontend are not part of this model.

=== FILE: angles.dfy ===
/** Angular geometry on the 360-degree zodiac circle.

    Python's `x % 360` with a positive modulus is the floored remainder, so
    it always lands in [0, 360); `Mod360` is that operator on exact reals. */
module Angles {

  /** `n` whole turns of the circle, in degrees. */
  function Turns(n: int): real {
    360.0 * n as real
  }

  /** `a` and `b` name the same point of the circle. */
  ghost predicate Congruent(a: real, b: real) {
    exists n: int :: a - b == Turns(n)
  }

  /** Python's `x % 360` */
  function Mod360(x: real): (r: real)
    ensures 0.0 <= r < 360.0
    ensures Congruent(x, r)
  {
    var n := (x / 360.0).Floor;
    assert x - (x - Turns(n)) == Turns(n);
    x - Turns(n)
  }

  /** Two reals that differ by a whole number of turns and both lie in
      [0, 360) are equal. */
  lemma CongruentInRangeEqual(a: real, b: real)
    requires 0.0 <= a < 360.0 && 0.0 <= b < 360.0
    requires Congruent(a, b)
    ensures a == b
  {
    var n: int :| a - b == Turns(n);
    assert -1.0 < n as real < 1.0;
  }

  /** `Mod360` is the unique representative in [0, 360). */
  lemma Mod360Unique(x: real, y: real)
    requires 0.0 <= y < 360.0
    requires Congruent(x, y)
    ensures Mod360(x) == y
  {
    var r := Mod360(x);
    var n: int :| x - r == Turns(n);
    var m: int :| x - y == Turns(m);
    assert r - y == Turns(m - n);
    CongruentInRangeEqual(r, y);
  }

  /** A value already on [0, 360) is left unchanged. */
  lemma Mod360OfInRange(x: real)
    requires 0.0 <= x < 360.0
    ensures Mod360(x) == x
  {
    assert x - x == Turns(0);
    Mod360Unique(x, x);
  }

  /** A point lying strictly between two consecutive whole turns is not a
      whole turn. */
  lemma StrictlyBetweenTurns(y: real, n: int)
    requires Turns(n) < y < Turns(n + 1)
    ensures !Congruent(y, 0.0)
  {
    forall k: int
      ensures y - 0.0 != Turns(k)
    {
      if k <= n {
        assert Turns(k) <= Turns(n);
      } else {
        assert Turns(n + 1) <= Turns(k);
      }
    }
  }

  /** `_signed_longitude_delta`: lon1 - lon2 folded onto [-180, 180). */
  function SignedDelta(lon1: real, lon2: real): (r: real)
    ensures -180.0 <= r < 180.0
    ensures Congruent(lon1 - lon2, r)
  {
    var m := Mod360(lon1 - lon2 + 180.0);
    var n: int :| lon1 - lon2 + 180.0 - m == Turns(n);
    assert (lon1 - lon2) - (m - 180.0) == Turns(n);
    m - 180.0
  }

  /** `abs(_signed_longitude_delta(lon1, lon2))`: the current angular
      separation of two bodies. */
  function Separation(lon1: real, lon2: real): (r: real)
    ensures 0.0 <= r <= 180.0
  {
    var d := SignedDelta(lon1, lon2);
    if d < 0.0 then -d else d
  }

  /** Python's `min(a, b)` on two reals. */
  function Min(a: real, b: real): real {
    if a <= b then a else b
  }

  /** Python's `max(a, b)` on two reals. */
  function Max(a: real, b: real): real {
    if a >= b then a else b
  }

  /** The separation is the length of the shorter arc between the two
      longitudes, whichever way round the circle it is measured. */
  lemma {:induction false} SeparationIsShorterArc(lon1: real, lon2: real)
    ensures Separation(lon1, lon2) == Min(Mod360(lon1 - lon2), 360.0 - Mod360(lon1 - lon2))
  {
    var m := Mod360(lon1 - lon2);
    var n: int :| (lon1 - lon2) - m == Turns(n);
    if m < 180.0 {
      assert (lon1 - lon2 + 180.0) - (m + 180.0) == Turns(n);
      Mod360Unique(lon1 - lon2 + 180.0, m + 180.0);
    } else {
      assert (lon1 - lon2 + 180.0) - (m - 180.0) == Turns(n + 1);
      Mod360Unique(lon1 - lon2 + 180.0, m - 180.0);
    }
  }

  /** Which body is named first does not change the separation. */
  lemma SeparationSymmetric(lon1: real, lon2: real)
    ensures Separation(lon1, lon2) == Separation(lon2, lon1)
  {
    var m := Mod360(lon1 - lon2);
    var n: int :| (lon1 - lon2) - m == Turns(n);
    SeparationIsShorterArc(lon1, lon2);
    SeparationIsShorterArc(lon2, lon1);
    if m == 0.0 {
      assert (lon2 - lon1) - 0.0 == Turns(-n);
      Mod360Unique(lon2 - lon1, 0.0);
    } else {
      assert (lon2 - lon1) - (360.0 - m) == Turns(-n - 1);
      Mod360Unique(lon2 - lon1, 360.0 - m);
    }
  }
}

=== FILE: charts.dfy ===
/** The entities the aspect engine works on: bodies, aspect kinds, positions,
    charts, times and the collaborators injected from outside the core. */
module Charts {
  import opened Wrappers

  /** The seven classical planets; `Other` stands for any further member of
      the planet enumeration (outer planets and the like), which the
      engine never treats as classical. */
  datatype Body =
    | Sun | Moon | Mercury | Venus | Mars | Jupiter | Saturn
    | Other(name: string)

  /** The five Ptolemaic aspects. */
  datatype AspectKind = Conjunction | Sextile | Square | Trine | Opposition

  /** The exact angle of each aspect. */
  function Degrees(k: AspectKind): real {
    match k
    case Conjunction => 0.0
    case Sextile => 60.0
    case Square => 90.0
    case Trine => 120.0
    case Opposition => 180.0
  }

  /** Longitude in degrees and signed daily speed (negative: retrograde). */
  datatype Position = Position(longitude: real, speed: real)

  predicate OnCircle(p: Position) {
    0.0 <= p.longitude < 360.0
  }

  /** One entry of a chart's planet dictionary. */
  datatype Placement = Placement(body: Body, pos: Position)

  /** A chart's planet dictionary, in insertion order. */
  type Chart = seq<Placement>

  /** Dictionary keys are unique. */
  predicate DistinctBodies(chart: Chart) {
    forall i, j :: 0 <= i < j < |chart| ==> chart[i].body != chart[j].body
  }

  /** `planets.get(body)`: the first entry for `body`, if any. */
  function Lookup(chart: Chart, body: Body): (r: Option<Position>)
    ensures r.Some? <==> exists i :: 0 <= i < |chart| && chart[i].body == body
    ensures r.Some? ==> Placement(body, r.value) in chart
  {
    if |chart| == 0 then None
    else if chart[0].body == body then Some(chart[0].pos)
    else Lookup(chart[1..], body)
  }

  /** `CLASSICAL_PLANETS` of the resolver, in its enumeration order. */
  const ClassicalPlanets: seq<Body> := [Sun, Moon, Mercury, Venus, Mars, Jupiter, Saturn]

  /** `ASPECT_TYPES` of the resolver, in its enumeration order. */
  const AspectTypes: seq<AspectKind> := [Conjunction, Sextile, Square, Trine, Opposition]

  /** A time in days from the chart moment; `Inf` is Python's `math.inf`,
      returned when two bodies have no relative motion. */
  datatype Time = Fin(days: real) | Inf {

    /** `t > 0` in Python, where `inf > 0` holds */
    predicate Positive() {
      Inf? || days > 0.0
    }

    /** `t > 0 and math.isfinite(t)` */
    predicate FinitePositive() {
      Fin? && days > 0.0
    }

    /** `t < 0`, which never holds of `inf` */
    predicate Negative() {
      Fin? && days < 0.0
    }
  }

  /** `days_to_sign_exit(longitude, speed)`: days until the body leaves its
      current 30-degree sign, or None when it never does. */
  type SignExit = (real, real) -> Option<real>

  /** A calendar moment, as built from the ephemeris's date conversion. */
  datatype Stamp = Stamp(year: int, month: int, day: int, hour: int, minute: int)

  /** The date conversion of a Julian day; None when it fails. */
  type CalendarFn = real -> Option<Stamp>
}

=== FILE: kinematics.dfy ===
/** The closed-form aspect timing of `time_to_perfection` and the
    applying/separating tests built on it. Motion is linear in time:
    a body at longitude `l` with speed `v` stands at `l + v * s` after `s`
    days. */
module Kinematics {
  import opened Angles
  import opened Charts

  function Abs(x: real): (r: real)
    ensures r >= 0.0 && (r == x || r == -x)
  {
    if x < 0.0 then -x else x
  }

  /** `s * abs(speed)` with `s = 1 if speed >= 0 else -1`; multiplying by
      plus or minus one is written as a choice of sign. */
  function Directed(speed: real): real {
    if speed >= 0.0 then Abs(speed) else -Abs(speed)
  }

  /** `s1 * abs(speed1) - s2 * abs(speed2)`: putting each speed's direction
      back onto its magnitude gives the plain difference of the signed
      speeds. */
  function RelativeSpeed(p1: Position, p2: Position): (v: real)
    ensures v == p1.speed - p2.speed
  {
    Directed(p1.speed) - Directed(p2.speed)
  }

  /** Division by the relative speed, and back. */
  lemma Quotient(m: real, v: real)
    requires v != 0.0 && m >= 0.0
    ensures (m / v) * v == m
    ensures v > 0.0 ==> m / v >= 0.0 && (m / v == 0.0 <==> m == 0.0)
    ensures v < 0.0 ==> m / v <= 0.0 && (m / v == 0.0 <==> m == 0.0)
  {
  }

  /** Two bodies moving for `t` days change their difference by `t` times
      their relative speed. */
  lemma Drift(l1: real, s1: real, l2: real, s2: real, d: real, v: real, t: real)
    requires v == s1 - s2
    ensures (l1 + s1 * t) - (l2 + s2 * t) - d == (l1 - l2 - d) + t * v
  {
  }

  /** Multiplying by a speed keeps (positive) or flips (negative) the order. */
  lemma ScaleOrder(s: real, t: real, v: real)
    requires s <= t
    ensures v > 0.0 ==> s * v <= t * v && (s < t ==> s * v < t * v)
    ensures v < 0.0 ==> t * v <= s * v && (s < t ==> t * v < s * v)
  {
  }

  /** The longitude of `p` after `s` days of linear motion, unwrapped. */
  function Advance(p: Position, s: real): real {
    p.longitude + p.speed * s
  }

  /** `theta0`: how far the pair has moved past the exact aspect, in [0, 360). */
  function PhaseOffset(p1: Position, p2: Position, k: AspectKind): real {
    Mod360(p1.longitude - p2.longitude - Degrees(k))
  }

  /** The aspect `k` is exact after `s` days of linear motion: the first
      body then stands `Degrees(k)` ahead of the second, up to whole turns. */
  ghost predicate ExactAt(p1: Position, p2: Position, k: AspectKind, s: real) {
    Congruent((p1.longitude + p1.speed * s) - (p2.longitude + p2.speed * s) - Degrees(k), 0.0)
  }

  /** `time_to_perfection`: `Inf` exactly when the bodies have no relative
      motion; otherwise a time at which the aspect is exact, on the side of
      zero that the relative speed points to, less than one full relative
      turn away. */
  function TimeToPerfection(p1: Position, p2: Position, k: AspectKind): (t: Time)
    ensures t.Inf? <==> p1.speed == p2.speed
    ensures t.Fin? ==> 0.0 <= t.days * (p1.speed - p2.speed) < 360.0
    ensures t.Fin? ==> ExactAt(p1, p2, k, t.days)
  {
    var theta0 := PhaseOffset(p1, p2, k);
    var v := RelativeSpeed(p1, p2);
    if v == 0.0 then Inf
    else
      var t := Mod360(-theta0) / v;
      ExactAfterCatchUp(p1, p2, k, v, t);
      Fin(t)
  }

  /** Advancing both bodies by `Mod360(-theta0) / v` days closes the gap. */
  lemma ExactAfterCatchUp(p1: Position, p2: Position, k: AspectKind, v: real, t: real)
    requires v == p1.speed - p2.speed && v != 0.0
    requires t == Mod360(-PhaseOffset(p1, p2, k)) / v
    ensures 0.0 <= t * v < 360.0
    ensures ExactAt(p1, p2, k, t)
  {
    var x := p1.longitude - p2.longitude - Degrees(k);
    var theta0 := PhaseOffset(p1, p2, k);
    var m := Mod360(-theta0);
    var a: int :| x - theta0 == Turns(a);
    var b: int :| -theta0 - m == Turns(b);
    Quotient(m, v);
    assert t * v == m;
    Drift(p1.longitude, p1.speed, p2.longitude, p2.speed, Degrees(k), v, t);
    var y := (p1.longitude + p1.speed * t) - (p2.longitude + p2.speed * t) - Degrees(k);
    assert y == x + m;
    assert y - 0.0 == Turns(a - b);
  }

  /** Catching up `Mod360(-theta0)` degrees when `theta0` is not zero means
      covering the rest of the circle. */
  lemma CatchUpDistance(theta0: real)
    requires 0.0 <= theta0 < 360.0
    ensures theta0 == 0.0 ==> Mod360(-theta0) == 0.0
    ensures theta0 > 0.0 ==> Mod360(-theta0) == 360.0 - theta0
  {
    if theta0 == 0.0 {
      Mod360OfInRange(0.0);
    } else {
      assert -theta0 - (360.0 - theta0) == Turns(-1);
      Mod360Unique(-theta0, 360.0 - theta0);
    }
  }

  /** The aspect is exact now exactly when `theta0` is zero. */
  lemma ExactNowIffNoOffset(p1: Position, p2: Position, k: AspectKind)
    ensures ExactAt(p1, p2, k, 0.0) <==> PhaseOffset(p1, p2, k) == 0.0
  {
    var x := p1.longitude - p2.longitude - Degrees(k);
    assert (p1.longitude + p1.speed * 0.0) - (p2.longitude + p2.speed * 0.0) - Degrees(k) == x;
    if ExactAt(p1, p2, k, 0.0) {
      var n: int :| x - 0.0 == Turns(n);
      assert x - 0.0 == Turns(n);
      Mod360Unique(x, 0.0);
    }
  }

  /** The finite time covers exactly the catch-up distance. */
  lemma CatchUpProduct(p1: Position, p2: Position, k: AspectKind)
    requires TimeToPerfection(p1, p2, k).Fin?
    ensures TimeToPerfection(p1, p2, k).days * (p1.speed - p2.speed) == Mod360(-PhaseOffset(p1, p2, k))
  {
    var v := p1.speed - p2.speed;
    var m := Mod360(-PhaseOffset(p1, p2, k));
    assert TimeToPerfection(p1, p2, k).days == m / v;
    Quotient(m, v);
  }

  /** A moment strictly between now and the catch-up time has covered less
      than the catch-up distance. */
  lemma InsideCatchUp(s: real, t: real, v: real, m: real)
    requires t * v == m
    requires (v > 0.0 && 0.0 <= s < t) || (v < 0.0 && t < s <= 0.0)
    ensures 0.0 <= s * v < m
  {
    if v > 0.0 {
      ScaleOrder(s, t, v);
      ScaleOrder(0.0, s, v);
    } else {
      ScaleOrder(t, s, v);
      ScaleOrder(s, 0.0, v);
    }
  }

  /** The finite time of `TimeToPerfection` is the FIRST exact moment in the
      direction the relative speed points: no moment strictly between now
      and it has the aspect exact. */
  lemma {:induction false} FirstCrossing(p1: Position, p2: Position, k: AspectKind)
    requires TimeToPerfection(p1, p2, k).Fin?
    ensures var t := TimeToPerfection(p1, p2, k).days;
      p1.speed > p2.speed ==> forall s :: 0.0 <= s < t ==> !ExactAt(p1, p2, k, s)
    ensures var t := TimeToPerfection(p1, p2, k).days;
      p1.speed < p2.speed ==> forall s :: t < s <= 0.0 ==> !ExactAt(p1, p2, k, s)
  {
    var t := TimeToPerfection(p1, p2, k).days;
    var v := p1.speed - p2.speed;
    var m := Mod360(-PhaseOffset(p1, p2, k));
    CatchUpProduct(p1, p2, k);
    forall s | (v > 0.0 && 0.0 <= s < t) || (v < 0.0 && t < s <= 0.0)
      ensures !ExactAt(p1, p2, k, s)
    {
      InsideCatchUp(s, t, v, m);
      NotExactInsideCatchUp(p1, p2, k, v, s);
    }
  }

  /** While the relative motion has covered less than the catch-up distance,
      the aspect is not yet exact. */
  lemma NotExactInsideCatchUp(p1: Position, p2: Position, k: AspectKind, v: real, s: real)
    requires v == p1.speed - p2.speed
    requires 0.0 <= s * v < Mod360(-PhaseOffset(p1, p2, k))
    ensures !ExactAt(p1, p2, k, s)
  {
    var x := p1.longitude - p2.longitude - Degrees(k);
    var theta0 := PhaseOffset(p1, p2, k);
    var a: int :| x - theta0 == Turns(a);
    CatchUpDistance(theta0);
    assert theta0 > 0.0;
    Drift(p1.longitude, p1.speed, p2.longitude, p2.speed, Degrees(k), v, s);
    OffsetBetweenTurns(x, theta0, a, s * v);
    NotExactFromOffset(p1, p2, k, s, x + s * v);
  }

  /** Moving `w` degrees on from an offset `theta0` short of a full turn
      lands strictly between two whole turns. */
  lemma OffsetBetweenTurns(x: real, theta0: real, a: int, w: real)
    requires x - theta0 == Turns(a)
    requires 0.0 < theta0 < 360.0
    requires 0.0 <= w < 360.0 - theta0
    ensures !Congruent(x + w, 0.0)
  {
    assert Turns(a + 1) == Turns(a) + 360.0;
    StrictlyBetweenTurns(x + w, a);
  }

  lemma NotExactFromOffset(p1: Position, p2: Position, k: AspectKind, s: real, y: real)
    requires y == (p1.longitude + p1.speed * s) - (p2.longitude + p2.speed * s) - Degrees(k)
    requires !Congruent(y, 0.0)
    ensures !ExactAt(p1, p2, k, s)
  {
  }

  /** `is_moon_applying_to_aspect`: the aspect perfects in finite future time. */
  function IsApplying(p1: Position, p2: Position, k: AspectKind): (r: bool)
    ensures p1.speed == p2.speed ==> !r
  {
    TimeToPerfection(p1, p2, k).FinitePositive()
  }

  /** `is_moon_separating_from_aspect`: the aspect perfected in finite past
      time; never true together with `IsApplying`. */
  function IsSeparating(p1: Position, p2: Position, k: AspectKind): (r: bool)
    ensures p1.speed == p2.speed ==> !r
    ensures r ==> !IsApplying(p1, p2, k)
  {
    TimeToPerfection(p1, p2, k).Negative()
  }

  /** Whether the pair is "applying" is decided by the relative speed alone:
      the faster first body applies to every aspect not exact right now. */
  lemma {:induction false} ApplyingIffFaster(p1: Position, p2: Position, k: AspectKind)
    ensures IsApplying(p1, p2, k) <==> p1.speed > p2.speed && !ExactAt(p1, p2, k, 0.0)
  {
    ExactNowIffNoOffset(p1, p2, k);
    CatchUpDistance(PhaseOffset(p1, p2, k));
    if p1.speed != p2.speed {
      Quotient(Mod360(-PhaseOffset(p1, p2, k)), p1.speed - p2.speed);
    }
  }

  /** Symmetrically, "separating" means the first body is the slower one and
      the aspect is not exact right now. */
  lemma {:induction false} SeparatingIffSlower(p1: Position, p2: Position, k: AspectKind)
    ensures IsSeparating(p1, p2, k) <==> p1.speed < p2.speed && !ExactAt(p1, p2, k, 0.0)
  {
    ExactNowIffNoOffset(p1, p2, k);
    CatchUpDistance(PhaseOffset(p1, p2, k));
    if p1.speed != p2.speed {
      Quotient(Mod360(-PhaseOffset(p1, p2, k)), p1.speed - p2.speed);
    }
  }

  /** A body at 0 degrees moving one degree a day reaches a stationary body at
      10 degrees, by conjunction, in ten days. */
  lemma TenDaysToConjunction()
    ensures TimeToPerfection(Position(0.0, 1.0), Position(10.0, 0.0), Conjunction) == Fin(10.0)
  {
    assert -10.0 - 350.0 == Turns(-1);
    Mod360Unique(-10.0, 350.0);
    assert -350.0 - 10.0 == Turns(-1);
    Mod360Unique(-350.0, 10.0);
  }

  /** Only the side with the first body ahead is timed. A Moon at 0 degrees
      moving 13 a day and Mars at 65 moving 0.5 a day are 5 degrees from a
      sextile, which becomes exact with Mars ahead after 0.4 days; yet the
      time reported is the sextile with the Moon ahead, 10 days out. */
  lemma MirrorSideNotTimed()
    ensures TimeToPerfection(Position(0.0, 13.0), Position(65.0, 0.5), Sextile) == Fin(10.0)
    ensures ExactAt(Position(65.0, 0.5), Position(0.0, 13.0), Sextile, 0.4)
    ensures !ExactAt(Position(0.0, 13.0), Position(65.0, 0.5), Sextile, 0.4)
  {
    assert -125.0 - 235.0 == Turns(-1);
    Mod360Unique(-125.0, 235.0);
    assert -235.0 - 125.0 == Turns(-1);
    Mod360Unique(-235.0, 125.0);
    assert (65.0 + 0.5 * 0.4) - (0.0 + 13.0 * 0.4) - 60.0 - 0.0 == Turns(0);
    assert (0.0 + 13.0 * 0.4) - (65.0 + 0.5 * 0.4) - 60.0 == -120.0;
    StrictlyBetweenTurns(-120.0, -1);
  }
}

=== FILE: moon.dfy ===
/** The Moon motion analyzer: the Moon's last separating aspect, its next
    applying aspect (whose absence, with the orb gate switched off, is the
    void-of-course condition), and the timing buckets shown for them. */
module Moon {
  import opened Wrappers
  import opened Angles
  import opened Charts
  import opened Kinematics
  import opened Signs
  import opened Orbs
  import opened Selection

  /** `format_timing_description`, as a bucket rather than text; `DaysAgo`
      is the "N days ago" label of a separating aspect. */
  datatype Timing =
    | WithinHours
    | WithinADay
    | WithinDays(n: int)
    | WithinWeeks(n: int)
    | WithinMonths(n: int)
    | MoreThanAYear
    | DaysAgo(days: real)

  /** `format_timing_description(days)`; Python's `int()` truncates, which
      is the floor for the positive values it sees here. */
  function FormatTiming(days: real): (r: Timing)
    ensures r.WithinHours? <==> days < 0.5
    ensures r.WithinADay? <==> 0.5 <= days < 1.0
    ensures r.WithinDays? <==> 1.0 <= days < 7.0
    ensures r.WithinWeeks? <==> 7.0 <= days < 30.0
    ensures r.WithinMonths? <==> 30.0 <= days < 365.0
    ensures r.WithinDays? ==> 1 <= r.n <= 6 && r.n as real <= days < r.n as real + 1.0
    ensures r.WithinWeeks? ==> 1 <= r.n <= 4 && 7.0 * r.n as real <= days < 7.0 * r.n as real + 7.0
    ensures r.WithinMonths? ==> 1 <= r.n <= 12 && 30.0 * r.n as real <= days < 30.0 * r.n as real + 30.0
    ensures r.MoreThanAYear? <==> days >= 365.0
    ensures !r.DaysAgo?
  {
    if days < 0.5 then WithinHours
    else if days < 1.0 then WithinADay
    else if days < 7.0 then WithinDays(days.Floor)
    else if days < 30.0 then WithinWeeks((days / 7.0).Floor)
    else if days < 365.0 then WithinMonths((days / 30.0).Floor)
    else MoreThanAYear
  }

  /** The buckets from finest to coarsest. */
  function Coarseness(t: Timing): int {
    match t
    case WithinHours => 0
    case WithinADay => 1
    case WithinDays(n) => 1 + n
    case WithinWeeks(n) => 7 + n
    case WithinMonths(n) => 11 + n
    case MoreThanAYear => 24
    case DaysAgo(_) => -1
  }

  lemma FloorMonotone(a: real, b: real)
    requires a <= b
    ensures a.Floor <= b.Floor
  {
  }

  /** A later perfection never gets a finer bucket than an earlier one. */
  lemma {:induction false} FormatTimingMonotone(a: real, b: real)
    requires a <= b
    ensures Coarseness(FormatTiming(a)) <= Coarseness(FormatTiming(b))
  {
    FloorMonotone(a, b);
    FloorMonotone(a / 7.0, b / 7.0);
    FloorMonotone(a / 30.0, b / 30.0);
  }

  /** `LunarAspect`: one aspect of the Moon to another body. */
  datatype LunarAspect = LunarAspect(
    planet: Body,
    aspect: AspectKind,
    orb: real,
    degreesDifference: real,
    etaDays: real,
    description: Timing,
    applying: bool)

  /** What the lunar searches read besides the chart: the iteration order of
      the aspect type, its nominal orbs and the sign-exit helper. */
  datatype LunarSettings = LunarSettings(kinds: seq<AspectKind>, nominal: NominalOrbs, exit: SignExit)

  /** The key of both `min` calls. */
  function Eta(a: LunarAspect): real {
    a.etaDays
  }

  /** The loop body of `calculate_moon_last_aspect` for one entry and kind:
      a separating aspect within one and a half nominal orbs, recorded with
      the (positive) time since it was exact. */
  function LastCandidate(s: LunarSettings, moon: Position, pl: Placement, k: AspectKind): (r: Option<LunarAspect>)
    ensures r.Some? ==> r.value.planet == pl.body != Moon && r.value.aspect == k && !r.value.applying
    ensures r.Some? ==> r.value.orb == OrbDiff(moon, pl.pos, k) <= s.nominal(k) * 1.5
    ensures r.Some? ==> r.value.etaDays > 0.0 && TimeToPerfection(moon, pl.pos, k) == Fin(-r.value.etaDays)
    ensures r.Some? <==> pl.body != Moon && OrbDiff(moon, pl.pos, k) <= s.nominal(k) * 1.5
                         && TimeToPerfection(moon, pl.pos, k).Negative()
    ensures r.Some? ==> r.value.degreesDifference == r.value.orb && r.value.description == DaysAgo(r.value.etaDays)
  {
    if pl.body == Moon then None
    else
      var orbDiff := Abs(Separation(moon.longitude, pl.pos.longitude) - Degrees(k));
      if orbDiff <= s.nominal(k) * 1.5 then
        var t := TimeToPerfection(moon, pl.pos, k);
        if t.Negative() then
          Some(LunarAspect(pl.body, k, orbDiff, orbDiff, -t.days, DaysAgo(-t.days), false))
        else None
      else None
  }

  /** `planets[Planet.MOON]` */
  function MoonPosition(chart: Chart): Position
    requires Lookup(chart, Moon).Some?
  {
    Lookup(chart, Moon).value
  }

  /** The candidate search of `calculate_moon_last_aspect` as a function of
      entry and kind. */
  function LastFn(s: LunarSettings, moon: Position): (Placement, AspectKind) -> Option<LunarAspect> {
    (pl: Placement, k: AspectKind) => LastCandidate(s, moon, pl, k)
  }

  /** The candidates of `calculate_moon_last_aspect`, in the order the
      loops append them. */
  function LastCandidates(s: LunarSettings, chart: Chart): seq<LunarAspect>
    requires Lookup(chart, Moon).Some?
  {
    Grid(chart, s.kinds, LastFn(s, MoonPosition(chart)))
  }

  /** What the selection of the soonest-perfected candidate guarantees. */
  lemma {:induction false} LastSelection(s: LunarSettings, moon: Position, chart: Chart, r: Option<LunarAspect>)
    requires r == MinBy(Grid(chart, s.kinds, LastFn(s, moon)), Eta)
    ensures r.None? <==> forall pl, k :: pl in chart && k in s.kinds ==> LastCandidate(s, moon, pl, k).None?
    ensures r.Some? ==> exists pl, k :: (pl in chart && k in s.kinds && LastCandidate(s, moon, pl, k) == r)
    ensures r.Some? ==> forall pl, k :: (pl in chart && k in s.kinds && LastCandidate(s, moon, pl, k).Some?) ==>
      r.value.etaDays <= LastCandidate(s, moon, pl, k).value.etaDays
  {
    var f := LastFn(s, moon);
    var g := Grid(chart, s.kinds, f);
    GridContents(chart, s.kinds, f);
    if r.None? {
      forall pl, k | pl in chart && k in s.kinds
        ensures LastCandidate(s, moon, pl, k).None?
      {
        assert f(pl, k) == LastCandidate(s, moon, pl, k);
      }
    } else {
      var pl, k :| pl in chart && k in s.kinds && f(pl, k) == r;
      forall pl', k' | pl' in chart && k' in s.kinds && LastCandidate(s, moon, pl', k').Some?
        ensures r.value.etaDays <= LastCandidate(s, moon, pl', k').value.etaDays
      {
        assert f(pl', k') == LastCandidate(s, moon, pl', k');
        assert Eta(r.value) <= Eta(f(pl', k').value);
      }
    }
  }

  /** `calculate_moon_last_aspect`: the most recently perfected separating
      aspect among all candidates, or None exactly when there is none. */
  function MoonLastAspect(s: LunarSettings, chart: Chart): (r: Option<LunarAspect>)
    requires Lookup(chart, Moon).Some?
    ensures r.None? <==> forall pl, k :: pl in chart && k in s.kinds ==>
      LastCandidate(s, MoonPosition(chart), pl, k).None?
    ensures r.Some? ==> exists pl, k :: (pl in chart && k in s.kinds &&
      LastCandidate(s, MoonPosition(chart), pl, k) == r)
    ensures r.Some? ==> r.value.planet != Moon && !r.value.applying && r.value.etaDays > 0.0
    ensures r.Some? ==> forall pl, k :: (pl in chart && k in s.kinds &&
      LastCandidate(s, MoonPosition(chart), pl, k).Some?) ==>
        r.value.etaDays <= LastCandidate(s, MoonPosition(chart), pl, k).value.etaDays
    // on a tie, the candidate appended first wins
    ensures r.Some? ==> exists i :: FirstMinimal(LastCandidates(s, chart), Eta, i) && LastCandidates(s, chart)[i] == r.value
  {
    var r := MinBy(LastCandidates(s, chart), Eta);
    LastSelection(s, MoonPosition(chart), chart, r);
    r
  }

  /** Since `time_to_perfection` is negative only when the first body is the
      slower one, the last-aspect search can only report a body that
      currently outpaces the Moon. */
  lemma LastAspectNeedsFasterBody(s: LunarSettings, chart: Chart)
    requires Lookup(chart, Moon).Some?
    ensures MoonLastAspect(s, chart).Some? ==> exists pl :: (pl in chart &&
      pl.body == MoonLastAspect(s, chart).value.planet && MoonPosition(chart).speed < pl.pos.speed)
  {
    var r := MoonLastAspect(s, chart);
    if r.Some? {
      var pl, k :| pl in chart && k in s.kinds && LastCandidate(s, MoonPosition(chart), pl, k) == r;
      SeparatingIffSlower(MoonPosition(chart), pl.pos, k);
    }
  }

  /** `classical_targets` of the next-aspect search: the Moon and any
      non-classical body are excluded. */
  predicate IsTarget(b: Body) {
    b in {Sun, Mercury, Venus, Mars, Jupiter, Saturn}
  }

  /** The loop body of `calculate_moon_next_aspect` for one entry and kind:
      an applying aspect (within the nominal orb unless the orb gate is off)
      that perfects before the Moon's own sign exit and passes the
      both-bodies sign gate. */
  function NextCandidate(
    s: LunarSettings, moon: Position, moonExit: Option<real>, ignoreOrb: bool,
    pl: Placement, k: AspectKind): (r: Option<LunarAspect>)
    ensures r.Some? ==> IsTarget(r.value.planet) && r.value.planet == pl.body && r.value.aspect == k
    ensures r.Some? ==> r.value.applying && r.value.etaDays > 0.0
    ensures r.Some? ==> TimeToPerfection(moon, pl.pos, k) == Fin(r.value.etaDays)
    ensures r.Some? ==> ignoreOrb || r.value.orb <= s.nominal(k)
    ensures r.Some? && moonExit.Some? ==> r.value.etaDays <= moonExit.value
    ensures r.Some? ==> WillPerfectBeforeSignExit(moon, pl.pos, Fin(r.value.etaDays), s.exit)
    ensures r.Some? ==> r.value.orb == OrbDiff(moon, pl.pos, k)
    ensures r.Some? ==> r.value.degreesDifference == r.value.orb && r.value.description == FormatTiming(r.value.etaDays)
    ensures r.Some? <==> (
      && IsTarget(pl.body)
      && (ignoreOrb || OrbDiff(moon, pl.pos, k) <= s.nominal(k))
      && TimeToPerfection(moon, pl.pos, k).FinitePositive()
      && (moonExit.None? || TimeToPerfection(moon, pl.pos, k).days <= moonExit.value)
      && WillPerfectBeforeSignExit(moon, pl.pos, TimeToPerfection(moon, pl.pos, k), s.exit))
  {
    if !IsTarget(pl.body) then None
    else
      var orbDiff := Abs(Separation(moon.longitude, pl.pos.longitude) - Degrees(k));
      if ignoreOrb || orbDiff <= s.nominal(k) then
        var t := TimeToPerfection(moon, pl.pos, k);
        if t.Positive() then
          var withinSign := WillPerfectBeforeSignExit(moon, pl.pos, t, s.exit);
          if (moonExit.Some? && (t.Inf? || t.days > moonExit.value)) || !withinSign then None
          else Some(LunarAspect(pl.body, k, orbDiff, orbDiff, t.days, FormatTiming(t.days), true))
        else None
      else None
  }

  /** `days_to_sign_exit(moon_pos.longitude, moon_speed)`, where the speed
      is the injected `get_moon_speed(jd_ut)`. */
  function MoonExit(s: LunarSettings, chart: Chart, moonSpeed: real): Option<real>
    requires Lookup(chart, Moon).Some?
  {
    s.exit(MoonPosition(chart).longitude, moonSpeed)
  }

  /** The candidate search of `calculate_moon_next_aspect` as a function of
      entry and kind. */
  function NextFn(s: LunarSettings, moon: Position, moonExit: Option<real>, ignoreOrb: bool)
    : (Placement, AspectKind) -> Option<LunarAspect>
  {
    (pl: Placement, k: AspectKind) => NextCandidate(s, moon, moonExit, ignoreOrb, pl, k)
  }

  /** The candidates of `calculate_moon_next_aspect`, in the order the
      loops append them. */
  function NextCandidates(s: LunarSettings, chart: Chart, moonSpeed: real, ignoreOrb: bool): seq<LunarAspect>
    requires Lookup(chart, Moon).Some?
  {
    Grid(chart, s.kinds, NextFn(s, MoonPosition(chart), MoonExit(s, chart, moonSpeed), ignoreOrb))
  }

  /** What the selection of the soonest candidate guarantees. */
  lemma {:induction false} NextSelection(
    s: LunarSettings, moon: Position, moonExit: Option<real>, ignoreOrb: bool, chart: Chart, r: Option<LunarAspect>)
    requires r == MinBy(Grid(chart, s.kinds, NextFn(s, moon, moonExit, ignoreOrb)), Eta)
    ensures r.None? <==> forall pl, k :: pl in chart && k in s.kinds ==>
      NextCandidate(s, moon, moonExit, ignoreOrb, pl, k).None?
    ensures r.Some? ==> exists pl, k :: (pl in chart && k in s.kinds &&
      NextCandidate(s, moon, moonExit, ignoreOrb, pl, k) == r)
    ensures r.Some? ==> forall pl, k :: (pl in chart && k in s.kinds &&
      NextCandidate(s, moon, moonExit, ignoreOrb, pl, k).Some?) ==>
        r.value.etaDays <= NextCandidate(s, moon, moonExit, ignoreOrb, pl, k).value.etaDays
  {
    var f := NextFn(s, moon, moonExit, ignoreOrb);
    GridContents(chart, s.kinds, f);
    if r.None? {
      forall pl, k | pl in chart && k in s.kinds
        ensures NextCandidate(s, moon, moonExit, ignoreOrb, pl, k).None?
      {
        assert f(pl, k) == NextCandidate(s, moon, moonExit, ignoreOrb, pl, k);
      }
    } else {
      var pl, k :| pl in chart && k in s.kinds && f(pl, k) == r;
      forall pl', k' | pl' in chart && k' in s.kinds && NextCandidate(s, moon, moonExit, ignoreOrb, pl', k').Some?
        ensures r.value.etaDays <= NextCandidate(s, moon, moonExit, ignoreOrb, pl', k').value.etaDays
      {
        assert f(pl', k') == NextCandidate(s, moon, moonExit, ignoreOrb, pl', k');
        assert Eta(r.value) <= Eta(f(pl', k').value);
      }
    }
  }

  /** `calculate_moon_next_aspect`: the soonest applying aspect that
      perfects before the Moon leaves its sign, or None exactly when there
      is no candidate. */
  function MoonNextAspect(s: LunarSettings, chart: Chart, moonSpeed: real, ignoreOrb: bool): (r: Option<LunarAspect>)
    requires Lookup(chart, Moon).Some?
    ensures r.None? <==> forall pl, k :: pl in chart && k in s.kinds ==>
      NextCandidate(s, MoonPosition(chart), MoonExit(s, chart, moonSpeed), ignoreOrb, pl, k).None?
    ensures r.Some? ==> exists pl, k :: (pl in chart && k in s.kinds &&
      NextCandidate(s, MoonPosition(chart), MoonExit(s, chart, moonSpeed), ignoreOrb, pl, k) == r)
    ensures r.Some? ==> IsTarget(r.value.planet) && r.value.applying && r.value.etaDays > 0.0
    ensures r.Some? && MoonExit(s, chart, moonSpeed).Some? ==> r.value.etaDays <= MoonExit(s, chart, moonSpeed).value
    ensures r.Some? ==> forall pl, k :: (pl in chart && k in s.kinds &&
      NextCandidate(s, MoonPosition(chart), MoonExit(s, chart, moonSpeed), ignoreOrb, pl, k).Some?) ==>
        r.value.etaDays <= NextCandidate(s, MoonPosition(chart), MoonExit(s, chart, moonSpeed), ignoreOrb, pl, k).value.etaDays
    // on a tie, the candidate appended first wins
    ensures r.Some? ==> exists i ::
      FirstMinimal(NextCandidates(s, chart, moonSpeed, ignoreOrb), Eta, i) &&
      NextCandidates(s, chart, moonSpeed, ignoreOrb)[i] == r.value
  {
    var r := MinBy(NextCandidates(s, chart, moonSpeed, ignoreOrb), Eta);
    NextSelection(s, MoonPosition(chart), MoonExit(s, chart, moonSpeed), ignoreOrb, chart, r);
    r
  }

  /** Switching the orb gate off only adds candidates: whenever the gated
      search finds a next aspect, the ungated one finds one no later. */
  lemma {:induction false} UngatedFindsNoLater(s: LunarSettings, chart: Chart, moonSpeed: real)
    requires Lookup(chart, Moon).Some?
    ensures MoonNextAspect(s, chart, moonSpeed, false).Some? ==>
      MoonNextAspect(s, chart, moonSpeed, true).Some? &&
      MoonNextAspect(s, chart, moonSpeed, true).value.etaDays <= MoonNextAspect(s, chart, moonSpeed, false).value.etaDays
  {
    var gated := MoonNextAspect(s, chart, moonSpeed, false);
    if gated.Some? {
      var moon := MoonPosition(chart);
      var moonExit := MoonExit(s, chart, moonSpeed);
      var pl, k :| pl in chart && k in s.kinds && NextCandidate(s, moon, moonExit, false, pl, k) == gated;
      assert NextCandidate(s, moon, moonExit, true, pl, k) == gated;
    }
  }

  /** The Moon is void of course when, with the orb gate off, no applying
      aspect perfects before it changes sign. */
  predicate VoidOfCourse(s: LunarSettings, chart: Chart, moonSpeed: real)
    requires Lookup(chart, Moon).Some?
    ensures VoidOfCourse(s, chart, moonSpeed) <==> forall pl, k :: pl in chart && k in s.kinds ==>
      !IsTarget(pl.body) ||
      !TimeToPerfection(MoonPosition(chart), pl.pos, k).FinitePositive() ||
      (MoonExit(s, chart, moonSpeed).Some? &&
       TimeToPerfection(MoonPosition(chart), pl.pos, k).days > MoonExit(s, chart, moonSpeed).value) ||
      !WillPerfectBeforeSignExit(MoonPosition(chart), pl.pos, TimeToPerfection(MoonPosition(chart), pl.pos, k), s.exit)
  {
    MoonNextAspect(s, chart, moonSpeed, true).None?
  }

  /** A Moon that is void of course has no next aspect within display orbs
      either. */
  lemma VoidMeansNoGatedAspect(s: LunarSettings, chart: Chart, moonSpeed: real)
    requires Lookup(chart, Moon).Some?
    ensures VoidOfCourse(s, chart, moonSpeed) ==> MoonNextAspect(s, chart, moonSpeed, false).None?
  {
    UngatedFindsNoLater(s, chart, moonSpeed);
  }
}

=== FILE: orbs.dfy ===
/** Orb arithmetic of the aspect scanner: the current distance from an exact
    aspect, the moiety-based orb tolerance with its legacy fallback, and the
    degrees/timestamp estimate of `calculate_enhanced_degrees_to_exact`. */
module Orbs {
  import opened Wrappers
  import opened Angles
  import opened Charts
  import opened Kinematics

  /** The orb settings of the configuration: the optional table of full
      orbs per planet (`config.orbs.moieties`, absent when the moiety system
      is off) and the legacy luminary bonuses. */
  datatype OrbConfig = OrbConfig(moieties: Option<map<Body, real>>, sunOrbBonus: real, moonOrbBonus: real)

  /** The nominal orb of each aspect kind, `aspect_type.orb`. */
  type NominalOrbs = AspectKind -> real

  /** `abs(separation - aspect.degrees)`: how far the current separation is
      from the exact aspect angle. */
  function OrbDiff(p1: Position, p2: Position, k: AspectKind): (r: real)
    ensures 0.0 <= r <= 180.0
  {
    Abs(Separation(p1.longitude, p2.longitude) - Degrees(k))
  }

  /** `_calculate_orb_to_aspect`. Its wrap-around branch (`orb > 180`) can
      never fire, because both the separation and the aspect angle lie in
      [0, 180]; the result is the plain orb difference. */
  function OrbToAspect(p1: Position, p2: Position, k: AspectKind): (r: real)
    ensures r == OrbDiff(p1, p2, k)
  {
    var orb := Abs(Separation(p1.longitude, p2.longitude) - Degrees(k));
    if orb > 180.0 then 360.0 - orb else orb
  }

  /** `_calculate_orb_to_aspect_at_time`: the orb to the exact aspect once
      both bodies have moved on for `s` days, their longitudes wrapped. */
  function OrbAtTime(p1: Position, p2: Position, k: AspectKind, s: real): (r: real)
    ensures 0.0 <= r <= 180.0
  {
    OrbToAspect(Position(Mod360(Advance(p1, s)), p1.speed), Position(Mod360(Advance(p2, s)), p2.speed), k)
  }

  /** The orb difference does not depend on which body is named first. */
  lemma OrbDiffSymmetric(p1: Position, p2: Position, k: AspectKind)
    ensures OrbDiff(p1, p2, k) == OrbDiff(p2, p1, k)
  {
    SeparationSymmetric(p1.longitude, p2.longitude);
  }

  /** A difference `x` sits at `d` on the circle exactly when `x - d` is a
      whole number of turns. */
  lemma AheadIff(x: real, d: real)
    requires 0.0 <= d < 360.0
    ensures Mod360(x) == d <==> Congruent(x - d, 0.0)
  {
    var n: int :| x - Mod360(x) == Turns(n);
    if Mod360(x) == d {
      assert (x - d) - 0.0 == Turns(n);
    }
    if Congruent(x - d, 0.0) {
      var j: int :| (x - d) - 0.0 == Turns(j);
      assert x - d == Turns(j);
      Mod360Unique(x, d);
    }
  }

  /** A difference `x` sits at `-d` on the circle exactly when `-x - d` is
      a whole number of turns. */
  lemma BehindIff(x: real, d: real)
    requires 0.0 <= d < 360.0
    ensures Mod360(x) == (if d == 0.0 then 0.0 else 360.0 - d) <==> Congruent(-x - d, 0.0)
  {
    var back := if d == 0.0 then 0.0 else 360.0 - d;
    var n: int :| x - Mod360(x) == Turns(n);
    if Mod360(x) == back {
      assert (-x - d) - 0.0 == Turns(if d == 0.0 then -n else -n - 1);
    }
    if Congruent(-x - d, 0.0) {
      var j: int :| (-x - d) - 0.0 == Turns(j);
      assert x - back == Turns(if d == 0.0 then -j else -j - 1);
      Mod360Unique(x, back);
    }
  }

  /** A zero orb difference means the aspect is exact now, with the first
      body either ahead of or behind the second by the aspect angle. */
  lemma {:induction false} ZeroOrbIffExactEitherWay(p1: Position, p2: Position, k: AspectKind)
    ensures OrbDiff(p1, p2, k) == 0.0 <==> ExactAt(p1, p2, k, 0.0) || ExactAt(p2, p1, k, 0.0)
  {
    var d := Degrees(k);
    var x := p1.longitude - p2.longitude;
    SeparationIsShorterArc(p1.longitude, p2.longitude);
    assert (p1.longitude + p1.speed * 0.0) - (p2.longitude + p2.speed * 0.0) - d == x - d;
    assert (p2.longitude + p2.speed * 0.0) - (p1.longitude + p1.speed * 0.0) - d == -x - d;
    AheadIff(x, d);
    BehindIff(x, d);
  }

  /** `getattr(config.orbs.moieties, planet.value, 0.0)` */
  function FullOrb(table: map<Body, real>, b: Body): real {
    if b in table then table[b] else 0.0
  }

  /** The aspect-specific scaling of the combined moieties. */
  function MoietyScale(k: AspectKind): real {
    match k
    case Conjunction => 1.0
    case Opposition => 1.0
    case Trine => 0.85
    case Square => 0.85
    case Sextile => 0.7
  }

  /** `calculate_moiety_based_orb`: 0 when the configuration has no moiety
      table; otherwise half of each planet's full orb, summed, scaled by
      the aspect kind. */
  function MoietyOrb(b1: Body, b2: Body, k: AspectKind, moieties: Option<map<Body, real>>): (r: real)
    ensures moieties.None? ==> r == 0.0
    ensures moieties.Some? && b1 !in moieties.value && b2 !in moieties.value ==> r == 0.0
  {
    match moieties
    case None => 0.0
    case Some(table) =>
      var combined := FullOrb(table, b1) / 2.0 + FullOrb(table, b2) / 2.0;
      combined * MoietyScale(k)
  }

  /** The orb is the same whichever planet is named first. */
  lemma MoietyOrbSymmetric(b1: Body, b2: Body, k: AspectKind, moieties: Option<map<Body, real>>)
    ensures MoietyOrb(b1, b2, k, moieties) == MoietyOrb(b2, b1, k, moieties)
  {
  }

  /** With non-negative full orbs the orb is non-negative and never wider
      than the combined moieties, which conjunction and opposition get in
      full. */
  lemma MoietyOrbBounds(b1: Body, b2: Body, k: AspectKind, table: map<Body, real>)
    requires FullOrb(table, b1) >= 0.0 && FullOrb(table, b2) >= 0.0
    ensures 0.0 <= MoietyOrb(b1, b2, k, Some(table))
    ensures MoietyOrb(b1, b2, k, Some(table)) <= FullOrb(table, b1) / 2.0 + FullOrb(table, b2) / 2.0
    ensures k == Conjunction || k == Opposition
        ==> MoietyOrb(b1, b2, k, Some(table)) == FullOrb(table, b1) / 2.0 + FullOrb(table, b2) / 2.0
  {
  }

  /** Full orbs of 8 and 6 degrees give moieties of 4 and 3; a trine
      between them is allowed 7 * 0.85 = 5.95 degrees. */
  lemma MoietyTrineExample()
    ensures MoietyOrb(Venus, Mars, Trine, Some(map[Venus := 8.0, Mars := 6.0])) == 5.95
  {
  }

  /** `max_orb` of `calculate_enhanced_aspects`: the moiety orb, or, when
      that is 0, the nominal orb plus the Sun's and the Moon's bonus for a
      pair that includes them. */
  function Tolerance(b1: Body, b2: Body, k: AspectKind, cfg: OrbConfig, nominal: NominalOrbs): (r: real)
    ensures MoietyOrb(b1, b2, k, cfg.moieties) != 0.0 ==> r == MoietyOrb(b1, b2, k, cfg.moieties)
  {
    var moiety := MoietyOrb(b1, b2, k, cfg.moieties);
    if moiety == 0.0 then
      nominal(k)
        + (if Sun in [b1, b2] then cfg.sunOrbBonus else 0.0)
        + (if Moon in [b1, b2] then cfg.moonOrbBonus else 0.0)
    else moiety
  }

  /** When the moiety orb is 0 (no table, a table without either planet,
      or zero full orbs), the tolerance is the nominal orb widened by the
      bonus of each luminary in the pair, and the pair's order is
      irrelevant. */
  lemma LegacyTolerance(b1: Body, b2: Body, k: AspectKind, cfg: OrbConfig, nominal: NominalOrbs)
    requires MoietyOrb(b1, b2, k, cfg.moieties) == 0.0
    ensures Tolerance(b1, b2, k, cfg, nominal) == Tolerance(b2, b1, k, cfg, nominal)
    ensures Sun !in {b1, b2} && Moon !in {b1, b2}
        ==> Tolerance(b1, b2, k, cfg, nominal) == nominal(k)
    ensures Sun in {b1, b2} && Moon !in {b1, b2}
        ==> Tolerance(b1, b2, k, cfg, nominal) == nominal(k) + cfg.sunOrbBonus
    ensures Sun !in {b1, b2} && Moon in {b1, b2}
        ==> Tolerance(b1, b2, k, cfg, nominal) == nominal(k) + cfg.moonOrbBonus
    ensures Sun in {b1, b2} && Moon in {b1, b2}
        ==> Tolerance(b1, b2, k, cfg, nominal) == nominal(k) + cfg.sunOrbBonus + cfg.moonOrbBonus
  {
    MoietyOrbSymmetric(b1, b2, k, cfg.moieties);
  }

  /** A table that lists neither planet gives the same tolerance as no
      table at all. */
  lemma AbsentFromTableFallsBack(b1: Body, b2: Body, k: AspectKind, cfg: OrbConfig, nominal: NominalOrbs)
    requires cfg.moieties.Some? && b1 !in cfg.moieties.value && b2 !in cfg.moieties.value
    ensures Tolerance(b1, b2, k, cfg, nominal) == Tolerance(b1, b2, k, cfg.(moieties := None), nominal)
  {
  }

  /** The result of `calculate_enhanced_degrees_to_exact`: the displayed
      degrees from exact and the estimated calendar moment of perfection. */
  datatype Estimate = Estimate(degrees: real, exactTime: Option<Stamp>)

  /** The time the estimate uses: the one passed in, or `time_to_perfection`
      when the caller passes None. */
  function EffectiveTime(p1: Position, p2: Position, k: AspectKind, t: Option<Time>): Time {
    match t
    case Some(given) => given
    case None => TimeToPerfection(p1, p2, k)
  }

  /** `calculate_enhanced_degrees_to_exact`. The calendar conversion is the
      parameter `convert` (the ephemeris's Julian-day conversion, None when it
      fails); it is consulted only for a finite positive time short of
      `maxFutureDays`. A degrees-from-exact below 0.1 is shown as 0.1. */
  function EnhancedDegreesToExact(
    p1: Position, p2: Position, k: AspectKind, julianDay: real, t: Option<Time>,
    maxFutureDays: real, convert: CalendarFn): (e: Estimate)
    ensures e.degrees >= 0.1
    ensures OrbDiff(p1, p2, k) >= 0.1 ==> e.degrees == OrbDiff(p1, p2, k)
    ensures OrbDiff(p1, p2, k) < 0.1 ==> e.degrees == 0.1
    ensures e.exactTime.Some? ==>
      EffectiveTime(p1, p2, k, t).FinitePositive() && EffectiveTime(p1, p2, k, t).days < maxFutureDays
    ensures EffectiveTime(p1, p2, k, t).FinitePositive() && EffectiveTime(p1, p2, k, t).days < maxFutureDays
      ==> e.exactTime == convert(julianDay + EffectiveTime(p1, p2, k, t).days)
  {
    var orbFromExact := Abs(Separation(p1.longitude, p2.longitude) - Degrees(k));
    var tt := EffectiveTime(p1, p2, k, t);
    var exactTime :=
      if tt.FinitePositive() && tt.days < maxFutureDays then convert(julianDay + tt.days)
      else None;
    if orbFromExact < 0.1 then Estimate(0.1, exactTime)
    else Estimate(orbFromExact, exactTime)
  }

  /** The degrees shown do not depend on which body is named first, and an
      aspect exact right now, either way round, shows the floor of 0.1. */
  lemma DegreesToExactMeaning(
    p1: Position, p2: Position, k: AspectKind, julianDay: real, t: Option<Time>,
    maxFutureDays: real, convert: CalendarFn)
    ensures EnhancedDegreesToExact(p1, p2, k, julianDay, t, maxFutureDays, convert).degrees
         == EnhancedDegreesToExact(p2, p1, k, julianDay, t, maxFutureDays, convert).degrees
    ensures ExactAt(p1, p2, k, 0.0) || ExactAt(p2, p1, k, 0.0) ==>
      EnhancedDegreesToExact(p1, p2, k, julianDay, t, maxFutureDays, convert).degrees == 0.1
  {
    OrbDiffSymmetric(p1, p2, k);
    ZeroOrbIffExactEitherWay(p1, p2, k);
  }

  /** Wrapping two longitudes that are exactly `k` apart keeps them so. */
  lemma WrappedExactHasZeroOrb(l1: real, l2: real, s1: real, s2: real, k: AspectKind)
    requires Congruent(l1 - l2 - Degrees(k), 0.0)
    ensures OrbToAspect(Position(Mod360(l1), s1), Position(Mod360(l2), s2), k) == 0.0
  {
    var d := Degrees(k);
    var a, b := Mod360(l1), Mod360(l2);
    var n1: int :| l1 - a == Turns(n1);
    var n2: int :| l2 - b == Turns(n2);
    var m: int :| (l1 - l2 - d) - 0.0 == Turns(m);
    var q1, q2 := Position(a, s1), Position(b, s2);
    assert (a + s1 * 0.0) - (b + s2 * 0.0) - d - 0.0 == Turns(m - n1 + n2);
    assert ExactAt(q1, q2, k, 0.0);
    ZeroOrbIffExactEitherWay(q1, q2, k);
  }

  /** Wrapping the two longitudes at an exact moment keeps the aspect exact. */
  lemma ExactMomentHasZeroOrb(p1: Position, p2: Position, k: AspectKind, t: real)
    requires ExactAt(p1, p2, k, t)
    ensures OrbAtTime(p1, p2, k, t) == 0.0
  {
    var x1, x2 := Advance(p1, t), Advance(p2, t);
    WrappedExactHasZeroOrb(x1, x2, p1.speed, p2.speed, k);
  }

  /** At the time `time_to_perfection` reports, the orb has closed to zero. */
  lemma OrbClosesAtPerfection(p1: Position, p2: Position, k: AspectKind)
    requires TimeToPerfection(p1, p2, k).Fin?
    ensures OrbAtTime(p1, p2, k, TimeToPerfection(p1, p2, k).days) == 0.0
  {
    ExactMomentHasZeroOrb(p1, p2, k, TimeToPerfection(p1, p2, k).days);
  }
}

=== FILE: pairscan.dfy ===
/** The nested "for i, for j > i" enumeration of unordered pairs, with a
    per-pair result that may be absent, written once for any element type.
    The aspect scanner instantiates it with its per-pair aspect search. */
module PairScan {
  import opened Wrappers

  /** The results for pairs (i, m) with j <= m < n, in order. */
  function Row<T>(f: (nat, nat) -> Option<T>, n: nat, i: nat, j: nat): seq<T>
    requires j <= n
    decreases n - j
  {
    if j == n then []
    else (match f(i, j) case Some(x) => [x] case None => []) + Row(f, n, i, j + 1)
  }

  /** The results for pairs (p, q) with i <= p < q < n, row by row. */
  function Scan<T>(f: (nat, nat) -> Option<T>, n: nat, i: nat): seq<T>
    requires i <= n
    decreases n - i
  {
    if i == n then [] else Row(f, n, i, i + 1) + Scan(f, n, i + 1)
  }

  lemma {:induction false} RowContents<T>(f: (nat, nat) -> Option<T>, n: nat, i: nat, j: nat)
    requires j <= n
    ensures forall x :: x in Row(f, n, i, j) ==> exists m :: j <= m < n && f(i, m) == Some(x)
    ensures forall m :: j <= m < n && f(i, m).Some? ==> f(i, m).value in Row(f, n, i, j)
    decreases n - j
  {
    if j < n {
      RowContents(f, n, i, j + 1);
    }
  }

  /** Exactly the results of the pairs from row `i` on appear. */
  lemma {:induction false} ScanContents<T>(f: (nat, nat) -> Option<T>, n: nat, i: nat)
    requires i <= n
    ensures forall x :: x in Scan(f, n, i) ==> exists p, q :: i <= p < q < n && f(p, q) == Some(x)
    ensures forall p, q :: i <= p < q < n && f(p, q).Some? ==> f(p, q).value in Scan(f, n, i)
    decreases n - i
  {
    if i < n {
      var row, rest := Row(f, n, i, i + 1), Scan(f, n, i + 1);
      assert Scan(f, n, i) == row + rest;
      RowContents(f, n, i, i + 1);
      ScanContents(f, n, i + 1);
      forall x | x in row + rest
        ensures exists p, q :: i <= p < q < n && f(p, q) == Some(x)
      {
        if x in row {
          var m: nat :| i + 1 <= m < n && f(i, m) == Some(x);
          assert i <= i < m < n && f(i, m) == Some(x);
        } else {
          assert x in rest;
        }
      }
      forall p, q | i <= p < q < n && f(p, q).Some?
        ensures f(p, q).value in row + rest
      {
        if p == i {
          assert f(p, q).value in row;
        } else {
          assert f(p, q).value in rest;
        }
      }
    }
  }

  /** `g` gives distinct labels to the positions below `n`. */
  ghost predicate Injective<U>(g: nat -> U, n: nat) {
    forall a: nat, b: nat :: a < b < n ==> g(a) != g(b)
  }

  /** Every result carries the labels of its pair. */
  ghost predicate Labelled<T, U>(f: (nat, nat) -> Option<T>, n: nat, first: T -> U, second: T -> U, g: nat -> U) {
    forall p: nat, q: nat :: p < q < n && f(p, q).Some? ==>
      first(f(p, q).value) == g(p) && second(f(p, q).value) == g(q)
  }

  /** No two elements of `r` share their `second` label. */
  ghost predicate DistinctBy<T, U>(r: seq<T>, key: T -> U) {
    forall a, b :: 0 <= a < b < |r| ==> key(r[a]) != key(r[b])
  }

  /** Results of row `i` carry label `g(i)` first and a later label second. */
  lemma {:induction false} RowLabels<T, U>(
    f: (nat, nat) -> Option<T>, n: nat, i: nat, j: nat, first: T -> U, second: T -> U, g: nat -> U)
    requires i < j <= n
    requires Labelled(f, n, first, second, g)
    ensures forall x :: x in Row(f, n, i, j) ==>
      first(x) == g(i) && exists m :: j <= m < n && second(x) == g(m)
  {
    RowContents(f, n, i, j);
    forall x | x in Row(f, n, i, j)
      ensures first(x) == g(i) && exists m :: j <= m < n && second(x) == g(m)
    {
      var m: nat :| j <= m < n && f(i, m) == Some(x);
      assert f(i, m).Some?;
    }
  }

  /** Within a row the second labels are pairwise distinct. */
  lemma {:induction false} RowDistinct<T, U>(
    f: (nat, nat) -> Option<T>, n: nat, i: nat, j: nat, first: T -> U, second: T -> U, g: nat -> U)
    requires i < j <= n
    requires Injective(g, n) && Labelled(f, n, first, second, g)
    ensures DistinctBy(Row(f, n, i, j), second)
    decreases n - j
  {
    if j < n {
      RowDistinct(f, n, i, j + 1, first, second, g);
      RowLabels(f, n, i, j + 1, first, second, g);
      var rest := Row(f, n, i, j + 1);
      var r := Row(f, n, i, j);
      if f(i, j).Some? {
        assert r == [f(i, j).value] + rest;
        assert second(r[0]) == g(j);
        forall a, b | 0 <= a < b < |r|
          ensures second(r[a]) != second(r[b])
        {
          assert r[b] == rest[b - 1];
          if a == 0 {
            assert r[b] in rest;
            var m: nat :| j + 1 <= m < n && second(r[b]) == g(m);
            assert g(j) != g(m);
          } else {
            assert r[a] == rest[a - 1];
            assert 0 <= a - 1 < b - 1 < |rest|;
            assert second(rest[a - 1]) != second(rest[b - 1]);
          }
        }
      } else {
        assert r == rest;
      }
    }
  }

  /** With injective labels, no two results of a scan carry the same pair
      of labels. */
  lemma {:induction false} ScanDistinct<T, U>(
    f: (nat, nat) -> Option<T>, n: nat, i: nat, first: T -> U, second: T -> U, g: nat -> U)
    requires i <= n
    requires Injective(g, n) && Labelled(f, n, first, second, g)
    ensures forall x :: x in Scan(f, n, i) ==> exists p :: i <= p < n && first(x) == g(p)
    ensures DistinctBy(Scan(f, n, i), (x: T) => (first(x), second(x)))
    decreases n - i
  {
    if i < n {
      RowDistinct(f, n, i, i + 1, first, second, g);
      RowLabels(f, n, i, i + 1, first, second, g);
      ScanDistinct(f, n, i + 1, first, second, g);
      var row := Row(f, n, i, i + 1);
      var rest := Scan(f, n, i + 1);
      var r := row + rest;
      forall a, b | 0 <= a < b < |r|
        ensures (first(r[a]), second(r[a])) != (first(r[b]), second(r[b]))
      {
        if b < |row| {
          assert r[a] == row[a] && r[b] == row[b];
          assert second(row[a]) != second(row[b]);
        } else if a >= |row| {
          assert r[a] == rest[a - |row|] && r[b] == rest[b - |row|];
          assert (first(rest[a - |row|]), second(rest[a - |row|]))
              != (first(rest[b - |row|]), second(rest[b - |row|]));
        } else {
          assert r[a] in row && r[b] in rest;
          var p: nat :| i + 1 <= p < n && first(r[b]) == g(p);
          assert first(r[a]) == g(i) != g(p);
        }
      }
    }
  }
}

=== FILE: perfection.dfy ===
/** The intervening-aspect resolver of `check_future_prohibitions`: before
    two significators perfect their own aspect, a third classical body that
    aspects one or both of them first either prohibits the perfection or
    completes it by translation or collection of light. */
module Perfection {
  import opened Wrappers
  import opened Angles
  import opened Charts
  import opened Signs

  /** The `perfection` section of the configuration; missing keys default
      to `require_in_sign = True` and `allow_out_of_sign = False`. */
  datatype PerfectionConfig = PerfectionConfig(requireInSign: bool, allowOutOfSign: bool)

  const DefaultConfig: PerfectionConfig := PerfectionConfig(true, false)

  /** The injected `calc_future_aspect_time(pos_significator, pos_planet,
      aspect, julian_day, days_ahead)`; None stands for its `None` and for
      any non-finite time, neither of which can make a leg valid. */
  type AspectTimeFn = (Position, Position, AspectKind, real, real) -> Option<real>

  /** `"easier"` or `"with difficulty"` */
  datatype Quality = Easier | WithDifficulty

  /** Conjunction, trine and sextile make for an easier perfection. */
  function QualityOf(k: AspectKind): (q: Quality)
    ensures q == Easier <==> k in {Conjunction, Trine, Sextile}
  {
    match k
    case Conjunction => Easier
    case Trine => Easier
    case Sextile => Easier
    case Square => WithDifficulty
    case Opposition => WithDifficulty
  }

  /** The dictionary the resolver returns. `softened` records whether the
      reason text ends in " (softened by reception)"; the rest of the reason
      text is left out. `Prohibited` is the dictionary's `prohibited` key.
      A prohibition's dictionary has no aspect key: its `aspect` here is the
      aspect its reason text names. */
  datatype Outcome =
    | NoneFound
    | Translation(translator: Body, tEvent: real, aspect: AspectKind, quality: Quality,
                  reception: bool, softened: bool)
    | Collection(collector: Body, tEvent: real, aspect: AspectKind, quality: Quality,
                 reception: bool, softened: bool)
    | Prohibition(prohibitor: Body, significator: Body, tProhibition: real, aspect: AspectKind)
  {
    predicate Prohibited() {
      Prohibition?
    }

    /** `t_event` or `t_prohibition` */
    function EventTime(): real
      requires !NoneFound?
    {
      if Prohibition? then tProhibition else tEvent
    }

    /** The third body: translator, collector or prohibitor. */
    function Mediator(): Body
      requires !NoneFound?
    {
      match this
      case Translation(b, _, _, _, _, _) => b
      case Collection(b, _, _, _, _, _) => b
      case Prohibition(b, _, _, _) => b
    }
  }

  /** One call of the resolver: chart, significators, horizon and the
      collaborators it is handed or reads (`days_to_sign_exit` and the
      reception test `calculate_comprehensive_reception(chart, planet, sig)
      ["type"] != "none"`). */
  datatype Query = Query(
    chart: Chart,
    julianDay: real,
    sig1: Body,
    sig2: Body,
    daysAhead: real,
    aspectTime: AspectTimeFn,
    cfg: PerfectionConfig,
    exit: SignExit,
    reception: (Body, Body) -> bool)

  /** Whether `_valid` goes on to compare against sign-exit horizons. */
  predicate InSignChecked(cfg: PerfectionConfig) {
    cfg.requireInSign && !cfg.allowOutOfSign
  }

  predicate ExitDefined(exit: SignExit, p: Position) {
    exit(p.longitude, p.speed).Some?
  }

  /** What the source needs of a query: both significators are in the chart
      (`chart.planets[sig]`), and when horizons are compared, every body the
      comparison can reach has a defined horizon (the source compares the
      helper's result without a None check). */
  predicate WellFormed(q: Query) {
    && Lookup(q.chart, q.sig1).Some?
    && Lookup(q.chart, q.sig2).Some?
    && (InSignChecked(q.cfg) ==>
         && ExitDefined(q.exit, Lookup(q.chart, q.sig1).value)
         && ExitDefined(q.exit, Lookup(q.chart, q.sig2).value)
         && forall i :: 0 <= i < |ClassicalPlanets| && Lookup(q.chart, ClassicalPlanets[i]).Some? ==>
              ExitDefined(q.exit, Lookup(q.chart, ClassicalPlanets[i]).value))
  }

  function Pos1(q: Query): Position
    requires Lookup(q.chart, q.sig1).Some?
  {
    Lookup(q.chart, q.sig1).value
  }

  function Pos2(q: Query): Position
    requires Lookup(q.chart, q.sig2).Some?
  {
    Lookup(q.chart, q.sig2).value
  }

  /** `_valid(t, p_a, p_b)`: a leg counts when its time is strictly inside
      (0, days_ahead) and, if horizons are compared, strictly before both
      bodies leave their signs. The horizons are needed only for a leg that
      reaches the comparison. */
  function ValidLeg(q: Query, t: Option<real>, pa: Position, pb: Position): (r: bool)
    requires InSignChecked(q.cfg) && t.Some? && 0.0 < t.value < q.daysAhead ==>
      ExitDefined(q.exit, pa) && ExitDefined(q.exit, pb)
    ensures r ==> t.Some? && 0.0 < t.value < q.daysAhead
    ensures !InSignChecked(q.cfg) ==> (r <==> t.Some? && 0.0 < t.value < q.daysAhead)
    ensures InSignChecked(q.cfg) ==> (r <==> (
      t.Some? && 0.0 < t.value < q.daysAhead &&
      t.value < q.exit(pa.longitude, pa.speed).value && t.value < q.exit(pb.longitude, pb.speed).value))
  {
    if t.None? || t.value <= 0.0 || t.value >= q.daysAhead then false
    else if !q.cfg.requireInSign then true
    else if q.cfg.allowOutOfSign then true
    else
      var exitA := q.exit(pa.longitude, pa.speed).value;
      var exitB := q.exit(pb.longitude, pb.speed).value;
      t.value < exitA && t.value < exitB
  }

  /** When the horizons are the geometric ones, a valid leg under in-sign
      checking is one during which neither body changes sign. */
  lemma ValidLegStaysInSign(q: Query, t: Option<real>, pa: Position, pb: Position)
    requires InSignChecked(q.cfg) && OnCircle(pa) && OnCircle(pb)
    requires q.exit(pa.longitude, pa.speed) == GeometricExit(pa.longitude, pa.speed)
    requires q.exit(pb.longitude, pb.speed) == GeometricExit(pb.longitude, pb.speed)
    requires ExitDefined(q.exit, pa) && ExitDefined(q.exit, pb)
    ensures ValidLeg(q, t, pa, pb) ==> StaysInSign(pa, t.value) && StaysInSign(pb, t.value)
  {
    if ValidLeg(q, t, pa, pb) {
      BeforeExitStays(pa, t.value);
      BeforeExitStays(pb, t.value);
    }
  }

  /** The precondition of the classification of one third body. */
  predicate Classifiable(q: Query, p: Position) {
    WellFormed(q) && (InSignChecked(q.cfg) ==> ExitDefined(q.exit, p))
  }

  /** The legs `t1` and `t2` from each significator to the third body. */
  function Leg1(q: Query, p: Position, k: AspectKind): Option<real>
    requires WellFormed(q)
  {
    q.aspectTime(Pos1(q), p, k, q.julianDay, q.daysAhead)
  }

  function Leg2(q: Query, p: Position, k: AspectKind): Option<real>
    requires WellFormed(q)
  {
    q.aspectTime(Pos2(q), p, k, q.julianDay, q.daysAhead)
  }

  predicate Valid1(q: Query, p: Position, k: AspectKind)
    requires Classifiable(q, p)
  {
    ValidLeg(q, Leg1(q, p, k), Pos1(q), p)
  }

  predicate Valid2(q: Query, p: Position, k: AspectKind)
    requires Classifiable(q, p)
  {
    ValidLeg(q, Leg2(q, p, k), Pos2(q), p)
  }

  /** The body of the inner loop for third body `planet` at `p` and aspect
      `k`: None when neither leg is valid, otherwise the outcome it returns. */
  function Classify(q: Query, planet: Body, p: Position, k: AspectKind): (r: Option<Outcome>)
    requires Classifiable(q, p)
    ensures r.None? <==> !Valid1(q, p, k) && !Valid2(q, p, k)
    ensures r.Some? ==> !r.value.NoneFound? && r.value.Mediator() == planet
    ensures r.Some? ==> 0.0 < r.value.EventTime() < q.daysAhead
    ensures r.Some? ==> r.value.aspect == k
    // a prohibition unless both legs are valid and the third body is faster or slower than both
    ensures r.Some? ==> (r.value.Prohibited() <==>
      !(Valid1(q, p, k) && Valid2(q, p, k)) || Min(Pos1(q).speed, Pos2(q).speed) <= p.speed <= Max(Pos1(q).speed, Pos2(q).speed))
    // translation and collection need both legs, and happen at the later one
    ensures r.Some? && (r.value.Translation? || r.value.Collection?) ==>
      Valid1(q, p, k) && Valid2(q, p, k) &&
      r.value.EventTime() == Max(Leg1(q, p, k).value, Leg2(q, p, k).value)
    ensures r.Some? && r.value.Translation? ==> p.speed > Pos1(q).speed && p.speed > Pos2(q).speed
    ensures r.Some? && r.value.Collection? ==> p.speed < Pos1(q).speed && p.speed < Pos2(q).speed
    // a prohibition hits the significator whose valid leg comes first, sig1 on a tie
    ensures r.Some? && r.value.Prohibition? && r.value.significator == q.sig1 ==>
      Valid1(q, p, k) && r.value.EventTime() == Leg1(q, p, k).value &&
      (Valid2(q, p, k) ==> Leg1(q, p, k).value <= Leg2(q, p, k).value)
    ensures r.Some? && r.value.Prohibition? ==>
      r.value.significator == q.sig1 || (
        r.value.significator == q.sig2 && Valid2(q, p, k) && r.value.EventTime() == Leg2(q, p, k).value &&
        (Valid1(q, p, k) ==> Leg2(q, p, k).value < Leg1(q, p, k).value))
    ensures r.Some? && r.value.Prohibition? && Valid1(q, p, k) && Valid2(q, p, k) ==>
      Min(Pos1(q).speed, Pos2(q).speed) <= p.speed <= Max(Pos1(q).speed, Pos2(q).speed)
    // reception only annotates a difficult perfection
    ensures r.Some? && (r.value.Translation? || r.value.Collection?) ==>
      (r.value.quality == Easier <==> k in {Conjunction, Trine, Sextile}) &&
      r.value.reception == (q.reception(planet, q.sig1) || q.reception(planet, q.sig2)) &&
      (r.value.softened <==> r.value.reception && r.value.quality == WithDifficulty)
  {
    var t1 := Leg1(q, p, k);
    var t2 := Leg2(q, p, k);
    var v1 := ValidLeg(q, t1, Pos1(q), p);
    var v2 := ValidLeg(q, t2, Pos2(q), p);
    if v1 && v2 then
      var quality := QualityOf(k);
      var hasReception := q.reception(planet, q.sig1) || q.reception(planet, q.sig2);
      var softened := hasReception && quality == WithDifficulty;
      if p.speed > Max(Pos1(q).speed, Pos2(q).speed) then
        Some(Translation(planet, Max(t1.value, t2.value), k, quality, hasReception, softened))
      else if p.speed < Min(Pos1(q).speed, Pos2(q).speed) then
        Some(Collection(planet, Max(t1.value, t2.value), k, quality, hasReception, softened))
      else if t1.value <= t2.value then
        Some(Prohibition(planet, q.sig1, t1.value, k))
      else
        Some(Prohibition(planet, q.sig2, t2.value, k))
    else if v1 then Some(Prohibition(planet, q.sig1, t1.value, k))
    else if v2 then Some(Prohibition(planet, q.sig2, t2.value, k))
    else None
  }
}

module PerfectionScan {
  import opened Wrappers
  import opened Charts
  import opened Perfection

  /** The outer loop's skip test: the significators themselves and bodies
      missing from the chart are not considered. */
  predicate Examined(q: Query, planet: Body) {
    planet != q.sig1 && planet != q.sig2 && Lookup(q.chart, planet).Some?
  }

  lemma ExaminedClassifiable(q: Query, pi: nat)
    requires WellFormed(q) && pi < |ClassicalPlanets| && Examined(q, ClassicalPlanets[pi])
    ensures Classifiable(q, Lookup(q.chart, ClassicalPlanets[pi]).value)
  {
  }

  /** What iteration (planet `pi`, aspect `ai`) of the double loop does:
      None when it moves on, the returned outcome otherwise. It returns
      exactly when the body is examined and one of its two legs is valid. */
  function PairOutcome(q: Query, pi: nat, ai: nat): (r: Option<Outcome>)
    requires WellFormed(q) && pi < |ClassicalPlanets| && ai < |AspectTypes|
    ensures r.Some? <==> (Examined(q, ClassicalPlanets[pi]) &&
      (Valid1(q, Lookup(q.chart, ClassicalPlanets[pi]).value, AspectTypes[ai]) ||
       Valid2(q, Lookup(q.chart, ClassicalPlanets[pi]).value, AspectTypes[ai])))
    ensures r.Some? ==> (Examined(q, ClassicalPlanets[pi]) && !r.value.NoneFound? &&
      r.value.Mediator() == ClassicalPlanets[pi] && r.value.aspect == AspectTypes[ai] &&
      0.0 < r.value.EventTime() < q.daysAhead)
  {
    var planet := ClassicalPlanets[pi];
    if !Examined(q, planet) then None
    else
      ExaminedClassifiable(q, pi);
      Classify(q, planet, Lookup(q.chart, planet).value, AspectTypes[ai])
  }

  /** (pj, aj) comes before (pi, ai) in the loops' order. */
  predicate Earlier(pj: nat, aj: nat, pi: nat, ai: nat) {
    pj < pi || (pj == pi && aj < ai)
  }

  /** Iteration (pi, ai) returns and no iteration before it does. */
  predicate FirstFiring(q: Query, pi: nat, ai: nat)
    requires WellFormed(q)
  {
    && pi < |ClassicalPlanets| && ai < |AspectTypes|
    && PairOutcome(q, pi, ai).Some?
    && forall pj: nat, aj: nat :: pj < |ClassicalPlanets| && aj < |AspectTypes| && Earlier(pj, aj, pi, ai) ==>
         PairOutcome(q, pj, aj).None?
  }

  /** The inner loop over aspects from `ai` on. */
  function ScanAspects(q: Query, pi: nat, ai: nat): (r: Option<Outcome>)
    requires WellFormed(q) && pi < |ClassicalPlanets| && ai <= |AspectTypes|
    ensures r.None? <==> forall a: nat :: ai <= a < |AspectTypes| ==> PairOutcome(q, pi, a).None?
    ensures r.Some? ==> exists a: nat :: (ai <= a < |AspectTypes| && PairOutcome(q, pi, a) == r &&
      forall b: nat :: ai <= b < a ==> PairOutcome(q, pi, b).None?)
    decreases |AspectTypes| - ai
  {
    if ai == |AspectTypes| then None
    else
      match PairOutcome(q, pi, ai)
      case Some(o) => Some(o)
      case None => ScanAspects(q, pi, ai + 1)
  }

  /** The outer loop over planets from `pi` on; `NoneFound` when it runs out. */
  function ScanPlanets(q: Query, pi: nat): (r: Outcome)
    requires WellFormed(q) && pi <= |ClassicalPlanets|
    ensures r.NoneFound? <==> forall p: nat, a: nat :: pi <= p < |ClassicalPlanets| && a < |AspectTypes| ==>
      PairOutcome(q, p, a).None?
    ensures !r.NoneFound? ==> exists p: nat, a: nat :: (pi <= p < |ClassicalPlanets| && a < |AspectTypes| &&
      PairOutcome(q, p, a) == Some(r) &&
      forall pj: nat, aj: nat :: pi <= pj && aj < |AspectTypes| && Earlier(pj, aj, p, a) ==>
        PairOutcome(q, pj, aj).None?)
    decreases |ClassicalPlanets| - pi
  {
    if pi == |ClassicalPlanets| then NoneFound
    else
      match ScanAspects(q, pi, 0)
      case Some(o) => o
      case None => ScanPlanets(q, pi + 1)
  }
}

module Prohibitions {
  import opened Wrappers
  import opened Charts
  import opened Perfection
  import opened PerfectionScan

  /** `check_future_prohibitions`: the first (planet, aspect) iteration, in
      the order of the two constant lists, that returns decides the outcome;
      `NoneFound` when none does. */
  function CheckFutureProhibitions(q: Query): (r: Outcome)
    requires WellFormed(q)
    ensures r.NoneFound? <==> forall p: nat, a: nat :: p < |ClassicalPlanets| && a < |AspectTypes| ==>
      PairOutcome(q, p, a).None?
    ensures !r.NoneFound? ==> exists p: nat, a: nat :: FirstFiring(q, p, a) && PairOutcome(q, p, a) == Some(r)
    ensures !r.NoneFound? ==> (0.0 < r.EventTime() < q.daysAhead &&
      r.Mediator() in ClassicalPlanets && Examined(q, r.Mediator()))
  {
    ScanPlanets(q, 0)
  }

  /** At most one iteration can be the first to return. */
  lemma FirstFiringUnique(q: Query, p1: nat, a1: nat, p2: nat, a2: nat)
    requires WellFormed(q) && FirstFiring(q, p1, a1) && FirstFiring(q, p2, a2)
    ensures p1 == p2 && a1 == a2
  {
  }

  /** An outcome with the reception annotation erased. */
  function Skeleton(o: Outcome): Outcome {
    match o
    case Translation(b, t, k, quality, _, _) => Translation(b, t, k, quality, false, false)
    case Collection(b, t, k, quality, _, _) => Collection(b, t, k, quality, false, false)
    case _ => o
  }

  lemma PairIgnoresReception(q: Query, rec: (Body, Body) -> bool, pi: nat, ai: nat)
    requires WellFormed(q) && pi < |ClassicalPlanets| && ai < |AspectTypes|
    ensures WellFormed(q.(reception := rec))
    ensures PairOutcome(q, pi, ai).None? == PairOutcome(q.(reception := rec), pi, ai).None?
    ensures PairOutcome(q, pi, ai).Some? ==>
      Skeleton(PairOutcome(q, pi, ai).value) == Skeleton(PairOutcome(q.(reception := rec), pi, ai).value)
  {
    var q' := q.(reception := rec);
    var planet := ClassicalPlanets[pi];
    if Examined(q, planet) {
      ExaminedClassifiable(q, pi);
      var p := Lookup(q.chart, planet).value;
      assert Valid1(q, p, AspectTypes[ai]) == Valid1(q', p, AspectTypes[ai]);
      assert Valid2(q, p, AspectTypes[ai]) == Valid2(q', p, AspectTypes[ai]);
    }
  }

  /** Reception never decides whether, when, by whom or in which aspect the
      main perfection is obstructed or completed: it only annotates the
      outcome. */
  lemma ReceptionOnlyAnnotates(q: Query, rec: (Body, Body) -> bool)
    requires WellFormed(q)
    ensures WellFormed(q.(reception := rec))
    ensures Skeleton(CheckFutureProhibitions(q)) == Skeleton(CheckFutureProhibitions(q.(reception := rec)))
  {
    var q' := q.(reception := rec);
    forall p: nat, a: nat | p < |ClassicalPlanets| && a < |AspectTypes|
      ensures PairOutcome(q, p, a).None? == PairOutcome(q', p, a).None?
      ensures PairOutcome(q, p, a).Some? ==>
        Skeleton(PairOutcome(q, p, a).value) == Skeleton(PairOutcome(q', p, a).value)
    {
      PairIgnoresReception(q, rec, p, a);
    }
    var r, r' := CheckFutureProhibitions(q), CheckFutureProhibitions(q');
    if !r.NoneFound? {
      var p: nat, a: nat :| FirstFiring(q, p, a) && PairOutcome(q, p, a) == Some(r);
      assert FirstFiring(q', p, a);
      var p': nat, a': nat :| FirstFiring(q', p', a') && PairOutcome(q', p', a') == Some(r');
      FirstFiringUnique(q', p, a, p', a');
    }
  }

  const MarsAt: Position := Position(10.0, 0.5)
  const VenusAt: Position := Position(20.0, 1.2)
  const JupiterAt: Position := Position(80.0, 0.3)
  const SaturnAt: Position := Position(50.0, 0.1)

  /** Mars and Venus as significators ten days from their perfection, with
      Saturn, slower than both, met by Mars in 3 days and by Venus in 7. */
  function CollectionQuery(): Query {
    Query(
      [Placement(Mars, MarsAt), Placement(Venus, VenusAt), Placement(Saturn, SaturnAt)],
      2460000.0, Mars, Venus, 10.0,
      (a: Position, b: Position, k: AspectKind, jd: real, d: real) =>
        if k == Conjunction && b == SaturnAt then
          (if a == MarsAt then Some(3.0) else if a == VenusAt then Some(7.0) else None)
        else None,
      DefaultConfig,
      (lon: real, speed: real) => Some(100.0),
      (x: Body, y: Body) => false)
  }

  /** Both legs fall inside the horizon and Saturn is slower than both
      significators: Saturn collects their light at the later leg. */
  lemma CollectionAtLaterLeg()
    ensures WellFormed(CollectionQuery())
    ensures CheckFutureProhibitions(CollectionQuery()) == Collection(Saturn, 7.0, Conjunction, Easier, false, false)
  {
    var q := CollectionQuery();
    assert Lookup(q.chart, Saturn) == Some(SaturnAt) by {
      assert q.chart[2] == Placement(Saturn, SaturnAt);
    }
    assert Pos1(q) == MarsAt by {
      assert q.chart[0] == Placement(Mars, MarsAt);
    }
    assert Pos2(q) == VenusAt by {
      assert q.chart[1] == Placement(Venus, VenusAt);
    }
    var expected := Collection(Saturn, 7.0, Conjunction, Easier, false, false);
    assert ClassicalPlanets[6] == Saturn && AspectTypes[0] == Conjunction;
    assert PairOutcome(q, 6, 0) == Some(expected);
    forall pj: nat, aj: nat | pj < |ClassicalPlanets| && aj < |AspectTypes| && Earlier(pj, aj, 6, 0)
      ensures PairOutcome(q, pj, aj).None?
    {
      assert !Examined(q, ClassicalPlanets[pj]);
    }
    assert FirstFiring(q, 6, 0);
    var r := CheckFutureProhibitions(q);
    assert !r.NoneFound?;
    var p: nat, a: nat :| FirstFiring(q, p, a) && PairOutcome(q, p, a) == Some(r);
    FirstFiringUnique(q, p, a, 6, 0);
  }

  /** Jupiter comes before Saturn in the planet order; Mars meets Jupiter in
      5 days and Saturn in 3. */
  function FirstPairQuery(): Query {
    Query(
      [Placement(Mars, MarsAt), Placement(Venus, VenusAt), Placement(Jupiter, JupiterAt),
       Placement(Saturn, SaturnAt)],
      2460000.0, Mars, Venus, 10.0,
      (a: Position, b: Position, k: AspectKind, jd: real, d: real) =>
        if k == Conjunction && a == MarsAt then
          (if b == JupiterAt then Some(5.0) else if b == SaturnAt then Some(3.0) else None)
        else None,
      DefaultConfig,
      (lon: real, speed: real) => Some(100.0),
      (x: Body, y: Body) => false)
  }

  lemma FirstPairPositions()
    ensures WellFormed(FirstPairQuery())
    ensures Pos1(FirstPairQuery()) == MarsAt && Pos2(FirstPairQuery()) == VenusAt
    ensures Lookup(FirstPairQuery().chart, Jupiter) == Some(JupiterAt)
    ensures Lookup(FirstPairQuery().chart, Saturn) == Some(SaturnAt)
  {
    var q := FirstPairQuery();
    assert q.chart[0] == Placement(Mars, MarsAt);
    assert q.chart[1] == Placement(Venus, VenusAt);
    assert q.chart[2] == Placement(Jupiter, JupiterAt);
    assert q.chart[3] == Placement(Saturn, SaturnAt);
  }

  lemma FirstPairEarlierQuiet(pj: nat, aj: nat)
    requires WellFormed(FirstPairQuery())
    requires pj < |ClassicalPlanets| && aj < |AspectTypes| && Earlier(pj, aj, 5, 0)
    ensures PairOutcome(FirstPairQuery(), pj, aj).None?
  {
    assert !Examined(FirstPairQuery(), ClassicalPlanets[pj]);
  }

  lemma FirstPairJupiter()
    ensures WellFormed(FirstPairQuery())
    ensures PairOutcome(FirstPairQuery(), 5, 0) == Some(Prohibition(Jupiter, Mars, 5.0, Conjunction))
  {
    var q := FirstPairQuery();
    FirstPairPositions();
    assert ClassicalPlanets[5] == Jupiter && AspectTypes[0] == Conjunction;
    assert Examined(q, Jupiter);
    assert Leg1(q, JupiterAt, Conjunction) == Some(5.0);
    assert Leg2(q, JupiterAt, Conjunction) == None;
    assert Valid1(q, JupiterAt, Conjunction) && !Valid2(q, JupiterAt, Conjunction);
  }

  lemma FirstPairSaturn()
    ensures WellFormed(FirstPairQuery())
    ensures PairOutcome(FirstPairQuery(), 6, 0) == Some(Prohibition(Saturn, Mars, 3.0, Conjunction))
  {
    var q := FirstPairQuery();
    FirstPairPositions();
    assert ClassicalPlanets[6] == Saturn && AspectTypes[0] == Conjunction;
    assert Examined(q, Saturn);
    assert Leg1(q, SaturnAt, Conjunction) == Some(3.0);
    assert Leg2(q, SaturnAt, Conjunction) == None;
    assert Valid1(q, SaturnAt, Conjunction) && !Valid2(q, SaturnAt, Conjunction);
  }

  /** The resolver reports the first obstruction in (planet, aspect) order,
      not the earliest in time: Jupiter's prohibition at day 5 wins over
      Saturn's at day 3. */
  lemma FirstPairNotEarliest()
    ensures WellFormed(FirstPairQuery())
    ensures CheckFutureProhibitions(FirstPairQuery()) == Prohibition(Jupiter, Mars, 5.0, Conjunction)
    ensures PairOutcome(FirstPairQuery(), 6, 0) == Some(Prohibition(Saturn, Mars, 3.0, Conjunction))
  {
    var q := FirstPairQuery();
    FirstPairJupiter();
    FirstPairSaturn();
    forall pj: nat, aj: nat | pj < |ClassicalPlanets| && aj < |AspectTypes| && Earlier(pj, aj, 5, 0)
      ensures PairOutcome(q, pj, aj).None?
    {
      FirstPairEarlierQuiet(pj, aj);
    }
    assert FirstFiring(q, 5, 0);
    var r := CheckFutureProhibitions(q);
    assert !r.NoneFound?;
    var p: nat, a: nat :| FirstFiring(q, p, a) && PairOutcome(q, p, a) == Some(r);
    FirstFiringUnique(q, p, a, 5, 0);
  }
}

=== FILE: scanner.dfy ===
/** The pairwise aspect scan of `calculate_enhanced_aspects`: every pair of
    chart entries (i < j in dictionary order), every aspect kind in the
    enumeration order of the aspect type, and only the first kind within
    tolerance is recorded for a pair. */
module Scanner {
  import opened Wrappers
  import opened Charts
  import opened Kinematics
  import opened Signs
  import opened Orbs
  import opened PairScan

  /** `AspectInfo`: one recorded aspect between two chart entries. */
  datatype AspectInfo = AspectInfo(
    planet1: Body,
    planet2: Body,
    aspect: AspectKind,
    orb: real,
    applying: bool,
    timeToPerfection: Time,
    perfectionWithinSign: bool,
    exactTime: Option<Stamp>,
    degreesToExact: real)

  /** What the scan reads besides the chart: the iteration order of the
      aspect type and its nominal orbs (defined outside this model), the orb
      and timing configuration, the sign-exit helper and the calendar
      conversion. */
  datatype ScanSettings = ScanSettings(
    kinds: seq<AspectKind>,
    nominal: NominalOrbs,
    orbs: OrbConfig,
    maxFutureDays: real,
    exit: SignExit,
    convert: CalendarFn)

  /** `orb_diff <= max_orb` for the pair and kind. */
  predicate Matches(e: ScanSettings, a: Placement, b: Placement, k: AspectKind) {
    OrbDiff(a.pos, b.pos, k) <= Tolerance(a.body, b.body, k, e.orbs, e.nominal)
  }

  /** The position in `e.kinds[from..]` of the first kind within tolerance:
      the inner loop with its `break`. */
  function FirstMatch(e: ScanSettings, a: Placement, b: Placement, from: nat): (r: Option<nat>)
    requires from <= |e.kinds|
    ensures r.Some? ==> from <= r.value < |e.kinds| && Matches(e, a, b, e.kinds[r.value])
    ensures r.Some? ==> forall j :: from <= j < r.value ==> !Matches(e, a, b, e.kinds[j])
    ensures r.None? ==> forall j :: from <= j < |e.kinds| ==> !Matches(e, a, b, e.kinds[j])
    decreases |e.kinds| - from
  {
    if from == |e.kinds| then None
    else if Matches(e, a, b, e.kinds[from]) then Some(from)
    else FirstMatch(e, a, b, from + 1)
  }

  /** The record appended for a pair once kind `k` has matched. */
  function Record(e: ScanSettings, julianDay: real, a: Placement, b: Placement, k: AspectKind): (r: AspectInfo)
    ensures r.planet1 == a.body && r.planet2 == b.body && r.aspect == k
    ensures r.orb == OrbDiff(a.pos, b.pos, k)
    ensures r.timeToPerfection == TimeToPerfection(a.pos, b.pos, k)
    ensures r.applying <==> r.timeToPerfection.FinitePositive()
    ensures r.perfectionWithinSign ==> r.applying
    ensures r.perfectionWithinSign <==> WillPerfectBeforeSignExit(a.pos, b.pos, r.timeToPerfection, e.exit)
    ensures r.degreesToExact >= 0.1
    ensures r.orb >= 0.1 ==> r.degreesToExact == r.orb
    ensures r.orb < 0.1 ==> r.degreesToExact == 0.1
    ensures r.exactTime.Some? ==> r.applying && r.timeToPerfection.days < e.maxFutureDays
  {
    var t := TimeToPerfection(a.pos, b.pos, k);
    var applying := t.FinitePositive();
    var withinSign := if applying then WillPerfectBeforeSignExit(a.pos, b.pos, t, e.exit) else false;
    var est := EnhancedDegreesToExact(a.pos, b.pos, k, julianDay, Some(t), e.maxFutureDays, e.convert);
    AspectInfo(a.body, b.body, k, OrbDiff(a.pos, b.pos, k), applying, t, withinSign,
               est.exactTime, est.degrees)
  }

  /** `is_applying_enhanced`: applying status, the within-sign flag and the
      time to perfection, as one triple. Its documentation calls a pair
      applying when the orb is shrinking; what it computes is that the first
      body is the faster one and the aspect is not exact now. */
  function ApplyingEnhanced(p1: Position, p2: Position, k: AspectKind, exit: SignExit): (r: (bool, bool, Time))
    ensures r.2 == TimeToPerfection(p1, p2, k)
    ensures r.0 <==> p1.speed > p2.speed && !ExactAt(p1, p2, k, 0.0)
    ensures r.1 ==> r.0
    ensures r.1 <==> WillPerfectBeforeSignExit(p1, p2, r.2, exit)
  {
    ApplyingIffFaster(p1, p2, k);
    var t := TimeToPerfection(p1, p2, k);
    var applying := t.FinitePositive();
    var withinSign := if applying then WillPerfectBeforeSignExit(p1, p2, t, exit) else false;
    (applying, withinSign, t)
  }

  /** With the geometric horizons, the within-sign flag holds exactly when
      the pair applies and neither body changes sign before perfection. */
  lemma WithinSignMeansBothStay(p1: Position, p2: Position, k: AspectKind, exit: SignExit)
    requires OnCircle(p1) && OnCircle(p2)
    requires exit(p1.longitude, p1.speed) == GeometricExit(p1.longitude, p1.speed)
    requires exit(p2.longitude, p2.speed) == GeometricExit(p2.longitude, p2.speed)
    ensures var r := ApplyingEnhanced(p1, p2, k, exit);
      r.1 <==> r.0 && StaysInSign(p1, r.2.days) && StaysInSign(p2, r.2.days)
  {
    GateIffBothStay(p1, p2, TimeToPerfection(p1, p2, k), exit);
  }

  /** The scan records exactly the status `is_applying_enhanced` reports. */
  lemma RecordAgreesWithStatus(e: ScanSettings, julianDay: real, a: Placement, b: Placement, k: AspectKind)
    ensures var r := Record(e, julianDay, a, b, k);
      (r.applying, r.perfectionWithinSign, r.timeToPerfection) == ApplyingEnhanced(a.pos, b.pos, k, e.exit)
  {
  }

  /** What the scan records for one pair: at most one aspect, of the first
      kind in enumeration order that is within tolerance. */
  function PairAspect(e: ScanSettings, julianDay: real, a: Placement, b: Placement): (r: Option<AspectInfo>)
    ensures r.None? <==> forall j :: 0 <= j < |e.kinds| ==> !Matches(e, a, b, e.kinds[j])
    ensures r.Some? ==> exists j :: (0 <= j < |e.kinds| && e.kinds[j] == r.value.aspect &&
      Matches(e, a, b, e.kinds[j]) && forall i :: 0 <= i < j ==> !Matches(e, a, b, e.kinds[i]))
    ensures r.Some? ==> r.value == Record(e, julianDay, a, b, r.value.aspect)
    ensures r.Some? ==> r.value.orb <= Tolerance(a.body, b.body, r.value.aspect, e.orbs, e.nominal)
  {
    match FirstMatch(e, a, b, 0)
    case None => None
    case Some(j) => Some(Record(e, julianDay, a, b, e.kinds[j]))
  }

  /** The per-pair search as a function of chart positions, for the
      nested `for i ... for planet2 in planet_list[i + 1:]` loops. */
  function PairAt(e: ScanSettings, julianDay: real, chart: Chart): (nat, nat) -> Option<AspectInfo> {
    (p: nat, q: nat) =>
      if p < |chart| && q < |chart| then PairAspect(e, julianDay, chart[p], chart[q]) else None
  }

  /** The body at each chart position. */
  function BodyAt(chart: Chart): nat -> Body {
    (m: nat) => if m < |chart| then chart[m].body else Sun
  }

  /** `x` is what the scan records for the pair at chart positions (p, q). */
  predicate RecordedFor(e: ScanSettings, julianDay: real, chart: Chart, p: nat, q: nat, x: AspectInfo)
    requires p < |chart| && q < |chart|
  {
    PairAspect(e, julianDay, chart[p], chart[q]) == Some(x)
  }

  /** The labels of a record are the bodies of its pair, and a dictionary's
      bodies are distinct. */
  lemma PairLabels(e: ScanSettings, julianDay: real, chart: Chart)
    ensures Labelled(PairAt(e, julianDay, chart), |chart|,
                     (x: AspectInfo) => x.planet1, (x: AspectInfo) => x.planet2, BodyAt(chart))
    ensures DistinctBodies(chart) ==> Injective(BodyAt(chart), |chart|)
  {
  }

  /** Every element of the scan is the record of some pair p < q. */
  lemma ScanSound(e: ScanSettings, julianDay: real, chart: Chart)
    ensures forall x :: x in Scan(PairAt(e, julianDay, chart), |chart|, 0) ==>
      exists p, q :: 0 <= p < q < |chart| && RecordedFor(e, julianDay, chart, p, q, x)
  {
    var f := PairAt(e, julianDay, chart);
    ScanContents(f, |chart|, 0);
    forall x | x in Scan(f, |chart|, 0)
      ensures exists p, q :: 0 <= p < q < |chart| && RecordedFor(e, julianDay, chart, p, q, x)
    {
      var p: nat, q: nat :| 0 <= p < q < |chart| && f(p, q) == Some(x);
      assert RecordedFor(e, julianDay, chart, p, q, x);
    }
  }

  /** Every pair p < q with a match has its record in the scan. */
  lemma ScanComplete(e: ScanSettings, julianDay: real, chart: Chart)
    ensures forall p, q :: 0 <= p < q < |chart| && PairAspect(e, julianDay, chart[p], chart[q]).Some? ==>
      PairAspect(e, julianDay, chart[p], chart[q]).value in Scan(PairAt(e, julianDay, chart), |chart|, 0)
  {
    var f := PairAt(e, julianDay, chart);
    ScanContents(f, |chart|, 0);
    forall p, q | 0 <= p < q < |chart| && PairAspect(e, julianDay, chart[p], chart[q]).Some?
      ensures PairAspect(e, julianDay, chart[p], chart[q]).value in Scan(f, |chart|, 0)
    {
      assert f(p, q) == PairAspect(e, julianDay, chart[p], chart[q]);
    }
  }

  /** No two records name the same two bodies in the same order. */
  predicate NoRepeatedPair(r: seq<AspectInfo>) {
    forall a, b :: 0 <= a < b < |r| ==> (r[a].planet1, r[a].planet2) != (r[b].planet1, r[b].planet2)
  }

  /** With distinct chart bodies, no pair of bodies appears twice. */
  lemma ScanNoDuplicates(e: ScanSettings, julianDay: real, chart: Chart)
    ensures DistinctBodies(chart) ==> NoRepeatedPair(Scan(PairAt(e, julianDay, chart), |chart|, 0))
  {
    if DistinctBodies(chart) {
      var f := PairAt(e, julianDay, chart);
      var first := (x: AspectInfo) => x.planet1;
      var second := (x: AspectInfo) => x.planet2;
      PairLabels(e, julianDay, chart);
      ScanDistinct(f, |chart|, 0, first, second, BodyAt(chart));
      var r := Scan(f, |chart|, 0);
      var key := (x: AspectInfo) => (first(x), second(x));
      forall a, b | 0 <= a < b < |r|
        ensures (r[a].planet1, r[a].planet2) != (r[b].planet1, r[b].planet2)
      {
        assert key(r[a]) != key(r[b]);
      }
    }
  }

  /** `calculate_enhanced_aspects(planets, jd_ut)`: every record comes from a
      pair of chart positions p < q and is that pair's first matching
      aspect; every pair with a matching aspect is recorded; and no pair of
      bodies is recorded twice. */
  function EnhancedAspects(e: ScanSettings, julianDay: real, chart: Chart): (r: seq<AspectInfo>)
    ensures forall x :: x in r ==>
      exists p, q :: 0 <= p < q < |chart| && RecordedFor(e, julianDay, chart, p, q, x)
    ensures forall p, q :: 0 <= p < q < |chart| && PairAspect(e, julianDay, chart[p], chart[q]).Some? ==>
      PairAspect(e, julianDay, chart[p], chart[q]).value in r
    ensures DistinctBodies(chart) ==> NoRepeatedPair(r)
  {
    ScanSound(e, julianDay, chart);
    ScanComplete(e, julianDay, chart);
    ScanNoDuplicates(e, julianDay, chart);
    Scan(PairAt(e, julianDay, chart), |chart|, 0)
  }
}

=== FILE: selection.dfy ===
/** Candidate collection and selection as the lunar searches do it: a
    nested loop over chart entries and aspect kinds appends the candidates
    it finds, and Python's `min(candidates, key=...)` picks the first one
    with the least key. */
module Selection {
  import opened Wrappers

  /** The candidates of one entry `p`, over the kinds in order. */
  function Cells<P, K, T>(p: P, ks: seq<K>, f: (P, K) -> Option<T>): seq<T> {
    if |ks| == 0 then []
    else (match f(p, ks[0]) case Some(x) => [x] case None => []) + Cells(p, ks[1..], f)
  }

  /** The candidates of all entries, entry by entry. */
  function Grid<P, K, T>(ps: seq<P>, ks: seq<K>, f: (P, K) -> Option<T>): seq<T> {
    if |ps| == 0 then [] else Cells(ps[0], ks, f) + Grid(ps[1..], ks, f)
  }

  lemma {:induction false} CellsContents<P, K, T>(p: P, ks: seq<K>, f: (P, K) -> Option<T>)
    ensures forall x :: x in Cells(p, ks, f) ==> exists k :: k in ks && f(p, k) == Some(x)
    ensures forall k :: k in ks && f(p, k).Some? ==> f(p, k).value in Cells(p, ks, f)
  {
    if |ks| > 0 {
      CellsContents(p, ks[1..], f);
      forall k | k in ks && k != ks[0]
        ensures k in ks[1..]
      {
        var i :| 0 <= i < |ks| && ks[i] == k;
        assert ks[1..][i - 1] == k;
      }
    }
  }

  /** The collected candidates are exactly the results of the entry/kind
      pairs that produced one. */
  lemma {:induction false} GridContents<P, K, T>(ps: seq<P>, ks: seq<K>, f: (P, K) -> Option<T>)
    ensures forall x :: x in Grid(ps, ks, f) ==> exists p, k :: p in ps && k in ks && f(p, k) == Some(x)
    ensures forall p, k :: p in ps && k in ks && f(p, k).Some? ==> f(p, k).value in Grid(ps, ks, f)
  {
    if |ps| > 0 {
      CellsContents(ps[0], ks, f);
      GridContents(ps[1..], ks, f);
      forall p | p in ps && p != ps[0]
        ensures p in ps[1..]
      {
        var i :| 0 <= i < |ps| && ps[i] == p;
        assert ps[1..][i - 1] == p;
      }
      forall x | x in Grid(ps, ks, f)
        ensures exists p, k :: p in ps && k in ks && f(p, k) == Some(x)
      {
        if x in Cells(ps[0], ks, f) {
          var k :| k in ks && f(ps[0], k) == Some(x);
        } else {
          assert x in Grid(ps[1..], ks, f);
          var p, k :| p in ps[1..] && k in ks && f(p, k) == Some(x);
        }
      }
    }
  }

  /** `s[i]` has the least key in `s`, and every element before it a
      strictly greater one. */
  ghost predicate FirstMinimal<T>(s: seq<T>, key: T -> real, i: int) {
    && 0 <= i < |s|
    && (forall x :: x in s ==> key(s[i]) <= key(x))
    && forall j :: 0 <= j < i ==> key(s[i]) < key(s[j])
  }

  /** Appending one element keeps the earlier first minimum unless the new
      element is strictly smaller. */
  lemma {:induction false} FirstMinimalExtend<T>(prefix: seq<T>, last: T, key: T -> real, m: T)
    requires exists i :: FirstMinimal(prefix, key, i) && prefix[i] == m
    ensures var s, r := prefix + [last], if key(last) < key(m) then last else m;
      r in s && (forall x :: x in s ==> key(r) <= key(x)) &&
      exists i :: FirstMinimal(s, key, i) && s[i] == r
  {
    var s := prefix + [last];
    var i :| FirstMinimal(prefix, key, i) && prefix[i] == m;
    assert forall x :: x in s ==> x in prefix || x == last;
    if key(last) < key(m) {
      forall j | 0 <= j < |prefix|
        ensures key(last) < key(s[j])
      {
        assert s[j] == prefix[j];
      }
      assert FirstMinimal(s, key, |prefix|);
    } else {
      forall j | 0 <= j < i
        ensures key(m) < key(s[j])
      {
        assert s[j] == prefix[j];
      }
      assert s[i] == m;
      assert FirstMinimal(s, key, i);
    }
  }

  /** `min(s, key=key)`, or None for an empty `s`: the first element whose
      key is least. */
  function MinBy<T>(s: seq<T>, key: T -> real): (r: Option<T>)
    ensures r.None? <==> |s| == 0
    ensures r.Some? ==> r.value in s
    ensures r.Some? ==> forall x :: x in s ==> key(r.value) <= key(x)
    ensures r.Some? ==> exists i :: FirstMinimal(s, key, i) && s[i] == r.value
  {
    if |s| == 0 then None
    else
      match MinBy(s[..|s| - 1], key)
      case None =>
        assert FirstMinimal(s, key, 0);
        Some(s[0])
      case Some(m) =>
        assert s == s[..|s| - 1] + [s[|s| - 1]];
        FirstMinimalExtend(s[..|s| - 1], s[|s| - 1], key, m);
        if key(s[|s| - 1]) < key(m) then Some(s[|s| - 1])
        else Some(m)
  }
}

=== FILE: signs.dfy ===
/** The "perfects before either body changes sign" gate of
    `_will_perfect_before_sign_exit`. A sign is a 30-degree band of the
    zodiac; `days_to_sign_exit` belongs to a helpers module outside this
    model and is a parameter (`SignExit`). */
module Signs {
  import opened Wrappers
  import opened Angles
  import opened Charts
  import opened Kinematics

  /** `int(longitude // 30)`: the index of the 30-degree band holding
      `longitude` (0 for Aries ... 11 for Pisces on [0, 360)). */
  function SignOf(longitude: real): (r: int)
    ensures 30.0 * r as real <= longitude < 30.0 * r as real + 30.0
  {
    (longitude / 30.0).Floor
  }

  lemma FloorUnique(x: real, k: int)
    requires k as real <= x < k as real + 1.0
    ensures x.Floor == k
  {
  }

  /** A longitude lies in band `k` exactly when it is in [30k, 30k + 30). */
  lemma SignBand(y: real, k: int)
    ensures SignOf(y) == k <==> 30.0 * k as real <= y < 30.0 * k as real + 30.0
  {
    if 30.0 * k as real <= y < 30.0 * k as real + 30.0 {
      FloorUnique(y / 30.0, k);
    }
  }

  /** The exit horizon of one body lets a perfection at `t` through:
      `not (exit is not None and t > exit)`. */
  predicate ExitAllows(p: Position, t: real, exit: SignExit) {
    var e := exit(p.longitude, p.speed);
    !(e.Some? && t > e.value)
  }

  /** The wrapped longitude at `t` is in the same band as now. */
  predicate SameSignAt(p: Position, t: real) {
    SignOf(p.longitude) == SignOf(Mod360(Advance(p, t)))
  }

  /** `_will_perfect_before_sign_exit(pos1, pos2, aspect, t)` (the aspect
      argument is not used by the source). True only for a finite positive
      `t` that neither body's exit horizon rules out and at which both
      bodies are back in the band they started in. */
  function WillPerfectBeforeSignExit(p1: Position, p2: Position, t: Time, exit: SignExit): (r: bool)
    ensures r ==> t.FinitePositive()
    ensures r ==> ExitAllows(p1, t.days, exit) && ExitAllows(p2, t.days, exit)
    ensures r ==> SignOf(p1.longitude) == SignOf(Mod360(Advance(p1, t.days)))
    ensures r ==> SignOf(p2.longitude) == SignOf(Mod360(Advance(p2, t.days)))
  {
    if !t.FinitePositive() then false
    else if !ExitAllows(p1, t.days, exit) then false
    else if !ExitAllows(p2, t.days, exit) then false
    else if !SameSignAt(p1, t.days) then false
    else if !SameSignAt(p2, t.days) then false
    else true
  }

  /** A reference sign-exit horizon: the days until linear motion carries
      the body onto the next band boundary in its direction of travel, and
      None for a stationary body. */
  function GeometricExit(longitude: real, speed: real): (r: Option<real>)
    ensures r.None? <==> speed == 0.0
  {
    var k := SignOf(longitude);
    if speed > 0.0 then Some((30.0 * k as real + 30.0 - longitude) / speed)
    else if speed < 0.0 then Some((longitude - 30.0 * k as real) / -speed)
    else None
  }

  /** The body never leaves its starting band during the first `t` days. */
  ghost predicate StaysInSign(p: Position, t: real) {
    forall s :: 0.0 <= s <= t ==> SignOf(Advance(p, s)) == SignOf(p.longitude)
  }

  lemma DivideBound(t: real, c: real, v: real)
    requires v > 0.0
    ensures t <= c / v <==> v * t <= c
    ensures t < c / v <==> v * t < c
  {
  }

  lemma Between(s: real, t: real, v: real)
    requires 0.0 <= s <= t
    ensures v >= 0.0 ==> 0.0 <= v * s <= v * t
    ensures v <= 0.0 ==> v * t <= v * s <= 0.0
  {
  }

  /** The band `[30k, 30k + 30)` a longitude starts in. */
  ghost predicate InStartBand(p: Position, y: real) {
    var lo := 30.0 * SignOf(p.longitude) as real;
    lo <= y < lo + 30.0
  }

  /** Passing the source's two per-body checks puts the unwrapped position
      at `t` inside the starting band. */
  lemma {:induction false} GateKeepsBand(p: Position, t: real, exit: SignExit)
    requires OnCircle(p) && t > 0.0
    requires exit(p.longitude, p.speed) == GeometricExit(p.longitude, p.speed)
    requires ExitAllows(p, t, exit) && SameSignAt(p, t)
    ensures InStartBand(p, Advance(p, t))
  {
    var lon, v := p.longitude, p.speed;
    var k := SignOf(lon);
    var lo := 30.0 * k as real;
    SignBand(lon, k);
    var y := Advance(p, t);
    Between(0.0, t, v);
    if v > 0.0 {
      DivideBound(t, lo + 30.0 - lon, v);
      assert lon <= y <= lo + 30.0;
      if y == lo + 30.0 {
        assert false;
      }
    } else if v < 0.0 {
      DivideBound(t, lon - lo, -v);
      assert lo <= y <= lon;
    }
  }

  /** Linear motion that ends in the starting band never left it. */
  lemma {:induction false} BandEndpointStays(p: Position, t: real)
    requires t > 0.0
    requires InStartBand(p, Advance(p, t))
    ensures StaysInSign(p, t)
  {
    var lon, v := p.longitude, p.speed;
    var k := SignOf(lon);
    SignBand(lon, k);
    var y := Advance(p, t);
    forall s | 0.0 <= s <= t
      ensures SignOf(Advance(p, s)) == k
    {
      Between(s, t, v);
      Between(0.0, s, v);
      if v >= 0.0 {
        assert lon <= Advance(p, s) <= y;
      } else {
        assert v * t <= v * s <= 0.0;
        assert y <= Advance(p, s) <= lon;
      }
      SignBand(Advance(p, s), k);
    }
  }

  /** A moving body stays in its band for any time short of its geometric
      horizon. */
  lemma {:induction false} BeforeExitStays(p: Position, t: real)
    requires OnCircle(p) && t > 0.0 && p.speed != 0.0
    requires t < GeometricExit(p.longitude, p.speed).value
    ensures StaysInSign(p, t)
  {
    var lon, v := p.longitude, p.speed;
    var k := SignOf(lon);
    var lo := 30.0 * k as real;
    SignBand(lon, k);
    Between(0.0, t, v);
    if v > 0.0 {
      DivideBound(t, lo + 30.0 - lon, v);
    } else {
      DivideBound(t, lon - lo, -v);
    }
    assert InStartBand(p, Advance(p, t));
    BandEndpointStays(p, t);
  }

  /** A body that stays in its band passes both per-body checks. */
  lemma {:induction false} StaysPassesGate(p: Position, t: real, exit: SignExit)
    requires OnCircle(p) && t > 0.0
    requires exit(p.longitude, p.speed) == GeometricExit(p.longitude, p.speed)
    requires StaysInSign(p, t)
    ensures ExitAllows(p, t, exit) && SameSignAt(p, t)
  {
    var lon, v := p.longitude, p.speed;
    var k := SignOf(lon);
    var lo := 30.0 * k as real;
    SignBand(lon, k);
    var y := Advance(p, t);
    assert SignOf(y) == k;
    SignBand(y, k);
    Mod360OfInRange(y);
    if v > 0.0 {
      DivideBound(t, lo + 30.0 - lon, v);
    } else if v < 0.0 {
      DivideBound(t, lon - lo, -v);
    }
  }

  /** For a body whose horizon is the geometric one, the source's two
      per-body checks (horizon, then band at `t`) say exactly that the body
      stays in its band up to `t`. */
  lemma {:induction false} BodyGateIffStays(p: Position, t: real, exit: SignExit)
    requires OnCircle(p) && t > 0.0
    requires exit(p.longitude, p.speed) == GeometricExit(p.longitude, p.speed)
    ensures ExitAllows(p, t, exit) && SameSignAt(p, t) <==> StaysInSign(p, t)
  {
    if ExitAllows(p, t, exit) && SameSignAt(p, t) {
      GateKeepsBand(p, t, exit);
      BandEndpointStays(p, t);
    }
    if StaysInSign(p, t) {
      StaysPassesGate(p, t, exit);
    }
  }

  /** With geometric horizons for both bodies, the gate holds exactly when
      `t` is a finite positive time during which neither body changes sign. */
  lemma {:induction false} GateIffBothStay(p1: Position, p2: Position, t: Time, exit: SignExit)
    requires OnCircle(p1) && OnCircle(p2)
    requires exit(p1.longitude, p1.speed) == GeometricExit(p1.longitude, p1.speed)
    requires exit(p2.longitude, p2.speed) == GeometricExit(p2.longitude, p2.speed)
    ensures WillPerfectBeforeSignExit(p1, p2, t, exit)
        <==> t.FinitePositive() && StaysInSign(p1, t.days) && StaysInSign(p2, t.days)
  {
    if t.FinitePositive() {
      BodyGateIffStays(p1, t.days, exit);
      BodyGateIffStays(p2, t.days, exit);
    }
  }
}

=== FILE: wrappers.dfy ===
/** The optional-value datatype used wherever the horary engine returns
    `None` for "nothing found" or "not defined". */
module Wrappers {

  datatype Option<+T> = None | Some(value: T)
}
